=== FILE: README.md ===
# Request pipeline of the Spiget API client

This project models the core of `java-spiget-client`. That core turns a request object into the HTTP call that is sent to the Spiget REST API. It covers:

- **Resolution** (`getOrCreateInfo`). A request class is read once, through its `@RequestData` annotation, its `Request<T>` interface and its declared fields. The result is a `RequestInfo` record, cached per class. The record holds:
  - the response type;
  - the content type;
  - the URI template, which is `BASE_URL` followed by the annotation's pattern;
  - the HTTP method;
  - the query fields.
- **URI building** (`formatUri`). The template is filled with the stringified positional arguments. A query string is then appended from the request's field values:
  - null values and empty collections are skipped;
  - collections are joined with commas;
  - the first pair goes behind `?` and every later one behind `&`;
  - nothing is encoded.
- **Dispatch**. There are four send methods: `sendRequest`, `sendRequestAsBody`, `sendRequestWithoutResponse` and `sendRequestRaw`. Each composes resolution, optional body encoding, URI building, the transport (`doSendRequest`) and an optional decoding or closing step.
- **The three request descriptors** `VersionResourceList`, `ResourceVersion` and `WebhookEvents`, with concrete facts about the URIs they send.

Both generations of the abstract client are modelled with one builder, selected by `Generation`:

- `Legacy` is `AbstractClient` with its nested `RequestInfo`. Query keys are always Java field names. Only reflective failures are wrapped into `IllegalStateException`. A failed close surfaces as `UncheckedIOException`.
- `Current` is `AbstractSpigetClient` with the top-level `RequestInfo`. Query keys honour `@SerializedName`. Every throwable is wrapped. A failed close surfaces as `CompletionException`.

Reflection is replaced by an explicit class description (`Resolution.ClassDecl`). A request instance is a map from field names to the value held or the exception a read raises. The transport and the JSON mapper are function parameters. A call is described by a `Dispatch.Run`, which records:

- the stages that ran;
- the envelope handed to `doSendRequest`;
- whether the call threw synchronously, or returned a future that completed or failed;
- the cache afterwards.

Files:

| file | module | contents |
|---|---|---|
| wrappers.dfy | Wrappers | `Option`, `Result` |
| seqs.dfy | Seqs | first index satisfying a predicate |
| text.dfy | Text | `Integer.toString`, comma joining |
| message_format.dfy | MessageFormat | the `{n}` subset of `java.text.MessageFormat` |
| model.dfy | Model | values, `Objects.toString`, field slots, errors |
| request_info.dfy | RequestInfo | the resolved record and `formatUri` |
| resolution.dfy | Resolution | the derivation step of `getOrCreateInfo` |
| info_cache.dfy | InfoCache | the per-class cache (`computeIfAbsent`) |
| dispatch.dfy | Dispatch | the four send methods |
| backends.dfy | Backends | the success gate of the HTTP backends |
| requests.dfy | Requests | the three request descriptors |

## Model

| member | source | states |
|---|---|---|
| Text.IntToStringRoundTrip | core/src/main/java/dev/derklaro/spiget/client/RequestInfo.java:54-58 | Reading back the decimal text of an integer argument gives the integer: the text has digits only, after an optional minus sign, and no grouping separators. |
| Text.DropTrailingComma | core/src/main/java/dev/derklaro/spiget/client/RequestInfo.java:79-86 | A collection is rendered by appending every element followed by a comma and then cutting the last character. This leaves exactly the elements joined by single commas, with no trailing comma. |
| Model.Show | core/src/main/java/dev/derklaro/spiget/client/RequestInfo.java:54-57 | A null argument renders as `null`, a string as itself and any other object as its `toString`. The string form of an integer argument is an optional minus sign followed by decimal digits only, with no grouping, and it reads back as the integer. |
| RequestInfo.NullArgumentPrintsNull | core/src/main/java/dev/derklaro/spiget/client/RequestInfo.java:54-58 | A null positional argument is not skipped the way a null query field is: its placeholder in the path becomes the text `null`. |
| MessageFormat.Parse | core/src/main/java/dev/derklaro/spiget/client/AbstractSpigetClient.java:181 | An accepted pattern never leaves a `{` or a quote as literal text, and every argument number in it fits in an `int`; text with neither character parses to itself. |
| MessageFormat.Format | core/src/main/java/dev/derklaro/spiget/client/RequestInfo.java:58 | When no placeholder has an argument, the output is the pattern text itself: each such placeholder stays as `{n}`. |
| MessageFormat.ParsePrint | core/src/main/java/dev/derklaro/spiget/client/AbstractSpigetClient.java:181 | Parsing the text form of a template gives the template back, when its literal characters need no quoting and every argument number fits in a Java `int`. |
| MessageFormat.UnmatchedBraceRejected | core/src/main/java/dev/derklaro/spiget/client/AbstractSpigetClient.java:181 | A `{` that is never closed, after any literal text, makes `MessageFormat` reject the whole pattern with unmatched braces. |
| MessageFormat.ArgumentNumberTooLarge | core/src/main/java/dev/derklaro/spiget/client/AbstractSpigetClient.java:181 | A placeholder whose argument number exceeds `Integer.MAX_VALUE`, after any literal text and before anything at all, makes `MessageFormat` reject the whole pattern. |
| MessageFormat.ParseLiteralPrefix | core/src/main/java/dev/derklaro/spiget/client/AbstractSpigetClient.java:181 | Literal text without braces or quotes, placed in front of a pattern, parses to itself. It does not change whether or how the rest parses. |
| MessageFormat.FormatHole | core/src/main/java/dev/derklaro/spiget/client/RequestInfo.java:58 | A placeholder whose argument exists is replaced by exactly that argument's text, as `MessageFormat.format` substitutes a `String` argument unchanged. |
| MessageFormat.FormatAppend | core/src/main/java/dev/derklaro/spiget/client/RequestInfo.java:58 | Formatting works piece by piece: the format of two joined templates is the joined formats. |
| MessageFormat.FormatLiteral | core/src/main/java/dev/derklaro/spiget/client/RequestInfo.java:58 | Literal text formats as itself, whatever the arguments. |
| MessageFormat.FormatWithoutArguments | core/src/main/java/dev/derklaro/spiget/client/RequestInfo.java:58 | With no arguments, every placeholder is left in the output as written (`{n}`); formatting never fails for lack of arguments. |
| RequestInfo.ValueText | core/src/main/java/dev/derklaro/spiget/client/RequestInfo.java:65-89 | A value is skipped exactly when it is null or an empty collection. A non-empty collection renders as its elements' string forms joined by commas. Any other value renders as its `Objects.toString` form. |
| RequestInfo.AppendQuery | core/src/main/java/dev/derklaro/spiget/client/RequestInfo.java:61-97 | The query loop yields a string exactly when every query field can be read; a single unreadable field aborts the whole URI. |
| RequestInfo.ReadFailure | core/src/main/java/dev/derklaro/spiget/client/RequestInfo.java:94-96 | A failed field read always keeps its cause. It escapes unwrapped exactly in the Legacy generation for a non-reflective exception (AbstractClient.java lines 208-210 catch only `ReflectiveOperationException`); otherwise it is the `IllegalStateException` naming the field. |
| RequestInfo.AppendQueryMatchesReference | core/src/main/java/dev/derklaro/spiget/client/RequestInfo.java:61-100 | The query loop yields the emitted pairs in field order, the first behind `?` and later ones behind `&`, when every field can be read. Otherwise it fails with the exception of the first field whose read throws, as that generation wraps it. |
| RequestInfo.SkippedFieldContributesNothing | core/src/main/java/dev/derklaro/spiget/client/RequestInfo.java:65-77 | A field holding null or an empty collection changes nothing: the query is the one built as if the field were not there, separators included. |
| RequestInfo.EmittedAppend | core/src/main/java/dev/derklaro/spiget/client/RequestInfo.java:61-93 | Pairs keep declaration order: the pairs of earlier fields come before those of later fields. |
| RequestInfo.FormatUri | core/src/main/java/dev/derklaro/spiget/client/RequestInfo.java:51-101 | The URI is built exactly when every query field can be read. It is the template formatted with the stringified arguments, followed by the assembled query, or exactly the formatted template when no pair is emitted. A read failure surfaces as the first failing field's `IllegalStateException` (Current). |
| RequestInfo.BuildUri | core/src/main/java/dev/derklaro/spiget/client/AbstractClient.java:169-214 | The loop as written computes the reference result: the formatted template followed by the assembled pairs, or the first unreadable field's exception. In the Legacy generation, only a reflective failure is wrapped; any other exception escapes as it is. |
| RequestInfo.BuildQuery | core/src/main/java/dev/derklaro/spiget/client/RequestInfo.java:61-97 | The buffer loop with its `oneFieldWritten` flag, ending early on the first unreadable field, gives exactly the result of the recursive query description. |
| RequestInfo.StringifyArgs | core/src/main/java/dev/derklaro/spiget/client/RequestInfo.java:54-57 | The stringified argument array holds each argument's `Objects.toString` form, in order. |
| Resolution.ResponseTypeOf | core/src/main/java/dev/derklaro/spiget/client/AbstractSpigetClient.java:131-146 | The response type is absent exactly when no generic interface is `Request<T>` with one type argument. Otherwise it is the argument of the first such interface. |
| Resolution.WireName | core/src/main/java/dev/derklaro/spiget/client/AbstractSpigetClient.java:157-158 | The query key is the field's name or its `@SerializedName` value. In the Current generation an annotated field is keyed by the annotation's value. The key is the field name in the Legacy generation and for a field without the annotation. |
| Resolution.GenerationsShareKey | core/src/main/java/dev/derklaro/spiget/client/AbstractSpigetClient.java:157-158 | The two generations use the same query key for a field exactly when it carries no `@SerializedName`, or one that repeats the field name. |
| Resolution.SetupFailure | core/src/main/java/dev/derklaro/spiget/client/AbstractSpigetClient.java:167-172 | When no getter can be obtained for a field, the Current generation wraps the failure in an `IllegalArgumentException` naming the field. The Legacy generation lets the exception from `setAccessible` (AbstractClient.java line 143) escape unwrapped. |
| Resolution.CollectQueryFields | core/src/main/java/dev/derklaro/spiget/client/AbstractSpigetClient.java:149-175 | The loop yields at most one query field per declared field. It fails only when some eligible field has no getter, and then with that field's setup exception. |
| Resolution.CollectMatchesReference | core/src/main/java/dev/derklaro/spiget/client/AbstractSpigetClient.java:149-175 | When every eligible field has a getter, the query fields are exactly the non-static, non-transient, non-`@ExcludeQuery` fields, in declaration order, under their wire names. Otherwise the loop fails on the first eligible field without a getter. |
| Resolution.CollectSucceeds | core/src/main/java/dev/derklaro/spiget/client/AbstractSpigetClient.java:149-175 | The field loop fails exactly when some eligible field has no getter. |
| Resolution.Resolve | core/src/main/java/dev/derklaro/spiget/client/AbstractSpigetClient.java:125-146 | A class without `@RequestData` fails with "no request annotation is present". A class with no `Request<T>` interface of one type argument fails with "Missing type parameter.". |
| Resolution.ResolveSucceeds | core/src/main/java/dev/derklaro/spiget/client/AbstractSpigetClient.java:125-185 | Resolution succeeds exactly when the annotation is present, a response type is declared, every eligible field has a getter and `MessageFormat` accepts the annotation's pattern. |
| Resolution.ResolvedInfo | core/src/main/java/dev/derklaro/spiget/client/AbstractSpigetClient.java:177-183 | A resolved record holds the response type of `Request<T>` and the annotation's content type and method. Its template is the base URL's literal text followed by the parsed pattern. Its query fields are the eligible fields in order, keyed by `@SerializedName` when present and otherwise by field name (Current), or always by field name (Legacy). |
| Resolution.ResolveFails | core/src/main/java/dev/derklaro/spiget/client/AbstractSpigetClient.java:155-181 | After the annotation and type checks, resolution fails first on the first eligible field without a getter. That is an `IllegalArgumentException` (Current) or the raw `InaccessibleObjectException` (Legacy). After that, it fails on a pattern `MessageFormat` rejects. |
| Resolution.UriStartsWithBaseUrl | core/src/main/java/dev/derklaro/spiget/client/AbstractSpigetClient.java:178-183 | Every URI built for a resolved class starts with "https://api.spiget.org/v2/", whatever the arguments and field values. |
| InfoCache.GetOrCreate | core/src/main/java/dev/derklaro/spiget/client/AbstractSpigetClient.java:126 | A hit returns the cached record, leaves the cache unchanged and derives nothing. A miss derives, and stores the record only when derivation succeeds. Other entries are kept. A cache holding only derived records stays so, and answers what resolution answers. |
| InfoCache.GetOrCreateIdempotent | core/src/main/java/dev/derklaro/spiget/client/AbstractClient.java:115 | After a successful lookup, a second lookup of the same class returns the same record, changes nothing and derives nothing. |
| InfoCache.CacheIsTransparent | core/src/main/java/dev/derklaro/spiget/client/AbstractSpigetClient.java:126 | Any sequence of lookups against one evolving cache answers, for each class, exactly what resolving that class answers. |
| Dispatch.Exchange | core/src/main/java/dev/derklaro/spiget/client/AbstractSpigetClient.java:85-91 | Up to the transport, the stages run in order: resolve, optionally encode, build the URI, send. A call throws exactly when nothing is sent. A completed exchange carries the record resolution yields and the transport's stream. |
| Dispatch.SendRequestRaw | core/src/main/java/dev/derklaro/spiget/client/AbstractSpigetClient.java:109-116 | No body is sent. The future completes with the transport's stream or fails with its error. The call throws exactly when nothing reaches the transport. |
| Dispatch.SendRequest | core/src/main/java/dev/derklaro/spiget/client/AbstractSpigetClient.java:69-78 | No body is sent. Decoding runs exactly when the transport delivered a stream. A transport error fails the future unchanged, and a decoding error fails it too. A completed result is that stream decoded with the resolved response type. |
| Dispatch.SendRequestAsBody | core/src/main/java/dev/derklaro/spiget/client/AbstractSpigetClient.java:80-92 | The body sent is the encoded request. When encoding fails for a resolvable class, the call throws that failure before the URI is built. Decoding runs exactly when the transport delivered a stream. A transport or decoding error fails the future unchanged, and a completed result is the decoded stream. |
| Dispatch.SendRequestWithoutResponse | core/src/main/java/dev/derklaro/spiget/client/AbstractSpigetClient.java:94-107 | The stream is closed exactly when the transport delivered one. The call completes only when closing succeeds. A failed close completes it exceptionally, with `CompletionException` (Current) or `UncheckedIOException` (Legacy, AbstractClient.java lines 86-96). |
| Dispatch.CloseFault | core/src/main/java/dev/derklaro/spiget/client/AbstractSpigetClient.java:99-106 | A failed close always completes the future exceptionally, as `UncheckedIOException` exactly in the Legacy generation (AbstractClient.java line 93) and as `CompletionException` otherwise. |
| Dispatch.UnresolvableThrows | core/src/main/java/dev/derklaro/spiget/client/AbstractSpigetClient.java:125-146 | When a class does not resolve, every send method throws the resolution failure. Nothing is encoded, built or sent, and the cache is unchanged. |
| Dispatch.CacheIsInvisible | core/src/main/java/dev/derklaro/spiget/client/AbstractSpigetClient.java:125-126 | Two clients whose caches hold only derived records run the same stages, send the same envelope and end the same way. |
| Dispatch.TypedRefinesRaw | core/src/main/java/dev/derklaro/spiget/client/AbstractSpigetClient.java:69-78 | `sendRequest` sends what `sendRequestRaw` sends. It passes a thrown or failed call on unchanged, and only decodes a delivered stream, into the resolved response type. |
| Dispatch.AsBodyDiffersOnlyInBody | core/src/main/java/dev/derklaro/spiget/client/AbstractSpigetClient.java:80-92 | For a resolvable class whose encoding succeeds, `sendRequestAsBody` sends the raw call's envelope with the encoded request as body and throws where the raw call throws. Once sent, it has run the full body pipeline, decodes exactly a delivered stream, and completes with the decoded value or fails with the transport's or decoder's error. |
| Dispatch.WithoutResponseClosesRawStream | core/src/main/java/dev/derklaro/spiget/client/AbstractSpigetClient.java:99-106 | `sendRequestWithoutResponse` is the raw call followed by one close. It completes with no value, fails with the generation's wrapper when close throws, and otherwise passes the raw outcome on. |
| Dispatch.RawSendsFormattedUri | core/src/main/java/dev/derklaro/spiget/client/AbstractSpigetClient.java:114-115 | For a resolvable class, the transport receives no body, the URI `formatUri` builds, and the resolved content type and method. A URI failure is thrown and nothing is sent. |
| Backends.NoContentSplitsTheGates | http-httpclient5/src/main/java/dev/derklaro/spiget/http/httpclient5/HttpClient5SpigetSpigetClient.java:85 | A 204 response without an entity succeeds behind the Java 11 backend and fails behind the HttpClient 5 backend. |
| Backends.GatesAgreeOnEntity | http-httpclient5/src/main/java/dev/derklaro/spiget/http/httpclient5/HttpClient5SpigetSpigetClient.java:85-89 | Whenever the response carries an entity, the HttpClient 5 backend accepts and rejects exactly the responses the Java 11 backend does, with the same status in the error. |
| Backends.NonSuccessNeverDecodes | http-java11/src/main/java/dev/derklaro/spiget/http/java11/Java11SpigetClient.java:74-79 | Behind the Java 11 backend, a non-2xx response is never decoded: `sendRequest` fails with the status code. |
| Requests.DescriptorResolves | core/src/main/java/dev/derklaro/spiget/client/AbstractSpigetClient.java:125-183 | A GET descriptor resolves in either generation to its response type, its content type, the base URL in front of its parsed pattern, `GET`, and its plain fields in declaration order under their own names. Transient and `@ExcludeQuery` fields are excluded. |
| Requests.VersionResourceListResolves | core/src/main/java/dev/derklaro/spiget/request/resource/VersionResourceList.java:40-52 | The template is the base URL, "resources/for/" and placeholder 0, with method GET. `client` and `version` are not query fields. The query fields are method, size, page, sort and fields, in that order. |
| Requests.VersionResourceListEmits | core/src/main/java/dev/derklaro/spiget/request/resource/VersionResourceList.java:48-52 | `method` and `sort` are emitted unless null. `size` and `page` are always emitted, even when 0. `fields` is emitted as one comma-joined value unless it is null or empty. |
| Requests.VersionResourceListUri | core/src/main/java/dev/derklaro/spiget/request/resource/VersionResourceList.java:40-57 | `exec` sends no body. It sends the URI made of `BASE_URL`, "resources/for/", the version as the only positional argument, and that query, with GET. |
| Requests.VersionResourceListExample | tests/src/test/java/dev/derklaro/spiget/tests/SpigetRequestTest.java:325-326 | Version "1.16", method "all", size 5 and page 2 send `BASE_URL` + "resources/for/1.16?method=all&size=5&page=2". |
| Requests.ResourceVersionResolves | core/src/main/java/dev/derklaro/spiget/request/resource/ResourceVersion.java:39-47 | The template is the base URL, "resources/", placeholder 0, "/versions/" and placeholder 1, with method GET and no query fields. |
| Requests.ResourceVersionUri | core/src/main/java/dev/derklaro/spiget/request/resource/ResourceVersion.java:39-52 | `exec` sends `BASE_URL` + "resources/" + the resource id + "/versions/" + the version id, in plain decimal, with no query string. |
| Requests.ResourceVersionExample | tests/src/test/java/dev/derklaro/spiget/tests/SpigetRequestTest.java:289-290 | Ids 19254 and 429596 give `BASE_URL` + "resources/19254/versions/429596", without digit grouping. |
| Requests.WebhookEventsResolves | core/src/main/java/dev/derklaro/spiget/request/webhook/WebhookEvents.java:38-41 | The response type is `Set<String>`, taken from `Request<Set<String>>`. The template is the base URL and "webhook/events", with no placeholders, method GET and no query fields. |
| Requests.WebhookEventsUri | core/src/main/java/dev/derklaro/spiget/request/webhook/WebhookEvents.java:38-46 | `exec` passes no arguments, so the URI is exactly `BASE_URL` + "webhook/events". |

`InfoCache.ClientCache.GetOrCreateInfo` wraps `GetOrCreate` as a method on the client object. It models `getOrCreateInfo` (core/src/main/java/dev/derklaro/spiget/client/AbstractSpigetClient.java:125-126). Its contract has the same content as `GetOrCreate`'s, stated over the object's state.

## Left out

- Dispatch.Exchange, Dispatch.SendRequestRaw: the transport is taken never to throw synchronously. Both backends call `URI.create` inside `doSendRequest` (Java11SpigetClient.java line 63, HttpClient5SpigetSpigetClient.java line 72), and the HttpClient 5 backend also calls `ContentType.parse` (line 78). Nothing is URL-encoded, so a query value with a space makes the real call throw after the envelope is handed over; in the model, a transport failure always completes the future exceptionally.
- MessageFormat.Parse: a `{` with no matching `}` but a later `{` answers `NotModelled`. The JDK counts nested braces there and silently drops the unfinished placeholder. Quoting, format types and nested braces inside a placeholder also answer `NotModelled`.
- Concurrency. `ConcurrentHashMap.computeIfAbsent` and `CompletableFuture` are modelled sequentially: one cache map, and a call that either throws, completes or fails.
- Reflection, `MethodHandle`s and annotations are replaced by `ClassDecl` and `FieldDecl`. The order of `getDeclaredFields` is not guaranteed by the JVM, so the field sequence is taken as given.
- The order in which a collection is iterated is taken as given: a collection value is the sequence of its elements.
- The `toString` of other objects, such as a `Sort` value, is a given string (`Atom.Opaque`).
- Java `int` fields are unbounded integers here. Their decimal form is the same for every value an `int` can hold.
- Only plain `{n}` placeholders of `MessageFormat` are interpreted. Quoting, format types (`{0,number}`) and non-ASCII digits make `Parse` answer `NotModelled`. None of the request patterns uses them.
- The transport and the JSON mapper are function parameters. Headers, timeouts, redirects and the HTTP exchange itself are not modelled. Of the backends, only the success gates of the Java 11 and HttpClient 5 backends are modelled. The Java 8 backend (`Java8SpigetSpigetClient.java`) is not part of this model.
- `RequestData.java` is not part of this model. The default content type of the annotation is therefore unknown, and the descriptors take the content type as a parameter.
- A missing argument is not an error. `MessageFormat` leaves `{n}` in the output and the source adds no check.
- The HttpClient 5 backend requires a response entity as well as a 2xx status. A 204 without a body therefore fails there but succeeds behind the Java 11 backend (`Backends.NoContentSplitsTheGates`).
- `IOException`s of the stream other than on close, and the `CompletionException` the HttpClient 5 backend wraps them in, are folded into the transport's `Err`.
- `InfoCache.ClientCache.GetOrCreateInfo` states its effect on the object through `old(...)`. The same facts are stated for the pure `InfoCache.GetOrCreate`.

=== FILE: backends.dfy ===
/** The success gate of the HTTP backends, as far as it decides whether a
    response stream reaches the caller. Everything else a backend does
    (headers, timeouts, the HTTP exchange itself) is a parameter. */
module Backends {
  import opened Wrappers
  import opened Model
  import opened InfoCache
  import opened Dispatch

  /** A successful status code: 200 to 299. */
  predicate IsSuccess(status: int) {
    200 <= status < 300
  }

  /** The Java 11 backend: a 2xx response hands its body stream on; any other
      status fails with an IllegalStateException naming the code. */
  function Java11Gate<S>(status: int, body: S): (r: Result<S, Error>)
    ensures r.Ok? <==> IsSuccess(status)
    ensures r.Ok? ==> r.value == body
    ensures r.Err? ==> r.error == UnexpectedStatus(status)
  {
    if 200 <= status && status < 300 then Ok(body) else Err(UnexpectedStatus(status))
  }

  /** The HttpClient 5 backend: the response must be 2xx AND carry an entity;
      otherwise it fails with an IllegalStateException naming the code. */
  function HttpClient5Gate<S>(status: int, entity: Option<S>): (r: Result<S, Error>)
    ensures r.Ok? <==> IsSuccess(status) && entity.Some?
    ensures r.Ok? ==> r.value == entity.value
    ensures r.Err? ==> r.error == UnexpectedStatus(status)
  {
    if 200 <= status && status < 300 && entity != None then Ok(entity.value) else Err(UnexpectedStatus(status))
  }

  /** The two gates agree whenever the response has an entity. */
  lemma GatesAgreeOnEntity<S>(status: int, body: S)
    ensures HttpClient5Gate(status, Some(body)) == Java11Gate(status, body)
  {
  }

  /** A 204 without an entity is a success for the Java 11 backend and a
      failure for the HttpClient 5 backend. */
  lemma NoContentSplitsTheGates<S>(body: S)
    ensures Java11Gate(204, body) == Ok(body)
    ensures HttpClient5Gate<S>(204, None) == Err(UnexpectedStatus(204))
  {
  }

  /** A transport behind the Java 11 gate; `exchange` performs the HTTP call
      and yields its status code and body stream. */
  function Java11Transport<S>(exchange: Envelope -> (int, S)): (send: Envelope -> Result<S, Error>)
    ensures forall e :: send(e).Ok? <==> IsSuccess(exchange(e).0)
  {
    (e: Envelope) => Java11Gate(exchange(e).0, exchange(e).1)
  }

  /** Behind the Java 11 backend, `sendRequest` never decodes a response with
      a status outside 2xx: the future fails with that status instead. */
  lemma NonSuccessNeverDecodes<S, D>(
    g: Generation, cache: Cache, req: Request, args: seq<Atom>,
    exchange: Envelope -> (int, S), decode: (S, TypeRef) -> Result<D, Error>)
    requires Callable(g, cache, req)
    ensures var r := SendRequest(g, cache, req, args, Java11Transport(exchange), decode);
      r.sent.Some? && !IsSuccess(exchange(r.sent.value).0) ==>
        Decoding !in r.stages && r.outcome == Failed(UnexpectedStatus(exchange(r.sent.value).0))
  {
    var send := Java11Transport(exchange);
    TypedRefinesRaw(g, cache, req, args, send, decode);
  }
}

=== FILE: dispatch.dfy ===
/** The four send methods of both client generations, composed over the
    abstract `doSendRequest`. Futures are modelled sequentially: an exception
    thrown by the send method itself (resolution, body encoding, URI building)
    is `Thrown`; a future that completes exceptionally (transport, decoding,
    closing) is `Failed`. The transport and the JSON mapper are parameters. */
module Dispatch {
  import opened Wrappers
  import opened Model
  import opened RequestInfo
  import opened Resolution
  import opened InfoCache

  /** The steps a send method can take, in the order they can happen. */
  datatype Stage = Resolving | Encoding | Formatting | Sending | Decoding | Closing

  /** The arguments of `doSendRequest`. */
  datatype Envelope = Envelope(body: Option<string>, uri: string, contentType: string, requestMethod: string)

  /** How a send method ends: it throws before returning a future, or it
      returns a future that completes with a value or exceptionally. */
  datatype Outcome<+T> = Thrown(error: Error) | Completed(value: T) | Failed(error: Error)

  /** A request object: its class and its field values. */
  datatype Request = Request(cls: ClassDecl, values: Instance)

  /** One call: the stages that ran, what was handed to `doSendRequest` (if
      anything), how the call ended, and the client's cache afterwards. */
  datatype Run<+T> = Run(stages: seq<Stage>, sent: Option<Envelope>, outcome: Outcome<T>, cache: Cache)

  /** The stages up to the transport, without and with a request body. The
      body is encoded before the URI is built: it is the first argument of
      `doSendRequest`, and Java evaluates arguments from left to right. */
  const PlainPipeline: seq<Stage> := [Resolving, Formatting, Sending]
  const BodyPipeline: seq<Stage> := [Resolving, Encoding, Formatting, Sending]

  /** What the callers of a send method provide: a cache holding only derived
      records, and a request object with a value for each declared field. */
  ghost predicate Callable(g: Generation, cache: Cache, req: Request) {
    Sound(g, cache) && Instantiates(req.values, req.cls)
  }

  /** The body handed to the transport: none, or the encoded request. */
  function Body(req: Request, encode: Option<Request -> Result<string, Error>>): (r: Result<Option<string>, Error>)
    ensures encode.None? ==> r == Ok(None)
    ensures encode.Some? && r.Ok? ==> r.value.Some? && encode.value(req) == Ok(r.value.value)
    ensures encode.Some? && r.Err? ==> encode.value(req) == Err(r.error)
  {
    match encode
    case None => Ok(None)
    case Some(enc) =>
      match enc(req)
      case Ok(text) => Ok(Some(text))
      case Err(e) => Err(e)
  }

  /** The stages before the URI is built. */
  function Opening(withBody: bool): seq<Stage> {
    if withBody then [Resolving, Encoding] else [Resolving]
  }

  /** The steps after resolution succeeded: the optional body, the URI, then
      the transport. The completed value carries the resolved record for the
      stages that follow. */
  function Deliver<S>(
    g: Generation, info: Info, cache: Cache, req: Request, args: seq<Atom>,
    encode: Option<Request -> Result<string, Error>>, send: Envelope -> Result<S, Error>): (r: Run<(Info, S)>)
    requires Covers(req.values, info.queryFields)
    ensures r.cache == cache
    ensures r.stages <= (if encode.Some? then BodyPipeline else PlainPipeline) && |r.stages| >= |Opening(encode.Some?)|
    ensures r.sent.Some? <==> Sending in r.stages
    ensures r.outcome.Thrown? <==> r.sent.None?
    ensures r.outcome.Completed? ==> r.sent.Some? && r.outcome.value.0 == info && send(r.sent.value) == Ok(r.outcome.value.1)
    ensures r.outcome.Failed? ==> r.sent.Some? && send(r.sent.value) == Err(r.outcome.error)
  {
    var opening := Opening(encode.Some?);
    match Body(req, encode)
    case Err(e) => Run(opening, None, Thrown(e), cache)
    case Ok(body) =>
      match FormatUri(info, req.values, args, g)
      case Err(e) => Run(opening + [Formatting], None, Thrown(e), cache)
      case Ok(uri) =>
        var envelope := Envelope(body, uri, info.contentType, info.requestMethod);
        var stages := opening + [Formatting, Sending];
        match send(envelope)
        case Err(e) => Run(stages, Some(envelope), Failed(e), cache)
        case Ok(stream) => Run(stages, Some(envelope), Completed((info, stream)), cache)
  }

  /** Everything up to and including `doSendRequest`: resolution through the
      cache, then the remaining steps. The cache is invisible: the call
      behaves as if the class were resolved afresh. */
  function Exchange<S>(
    g: Generation, cache: Cache, req: Request, args: seq<Atom>,
    encode: Option<Request -> Result<string, Error>>, send: Envelope -> Result<S, Error>): (r: Run<(Info, S)>)
    requires Callable(g, cache, req)
    ensures Sound(g, r.cache) && r.cache == GetOrCreate(g, cache, req.cls).cache
    ensures r.stages <= (if encode.Some? then BodyPipeline else PlainPipeline)
    ensures r.sent.Some? <==> Sending in r.stages
    ensures r.outcome.Thrown? <==> r.sent.None?
    ensures r.outcome.Completed? ==>
      && r.sent.Some? && Resolve(g, req.cls).Ok?
      && r.outcome.value.0 == Resolve(g, req.cls).value && send(r.sent.value) == Ok(r.outcome.value.1)
    ensures r.outcome.Failed? ==> r.sent.Some? && send(r.sent.value) == Err(r.outcome.error)
  {
    var lookup := GetOrCreate(g, cache, req.cls);
    match lookup.info
    case Err(e) => Run([Resolving], None, Thrown(e), lookup.cache)
    case Ok(info) =>
      ResolvedFieldsAreDeclared(g, req.cls, req.values);
      Deliver(g, info, lookup.cache, req, args, encode, send)
  }

  /** The outcome of a call that did not complete, at another result type. */
  function Unfinished<A, B>(o: Outcome<A>): (r: Outcome<B>)
    requires !o.Completed?
    ensures !r.Completed? && r.Thrown? == o.Thrown? && r.error == o.error
  {
    match o
    case Thrown(e) => Thrown(e)
    case Failed(e) => Failed(e)
  }

  /** `CompletableFuture.thenApply`: a completed call runs one more stage,
      whose failure completes the future exceptionally; a call that threw or
      failed is passed on untouched. */
  function ThenApply<A, B>(run: Run<A>, stage: Stage, step: A -> Result<B, Error>): (r: Run<B>)
    ensures r.sent == run.sent && r.cache == run.cache
    ensures r.stages == run.stages + (if run.outcome.Completed? then [stage] else [])
    ensures run.outcome.Completed? && step(run.outcome.value).Ok? ==> r.outcome == Completed(step(run.outcome.value).value)
    ensures run.outcome.Completed? && step(run.outcome.value).Err? ==> r.outcome == Failed(step(run.outcome.value).error)
    ensures !run.outcome.Completed? ==> !r.outcome.Completed? && r.outcome.Thrown? == run.outcome.Thrown? && r.outcome.error == run.outcome.error
  {
    match run.outcome
    case Completed(a) =>
      var outcome := match step(a) case Ok(b) => Completed(b) case Err(e) => Failed(e);
      Run(run.stages + [stage], run.sent, outcome, run.cache)
    case _ => Run(run.stages, run.sent, Unfinished(run.outcome), run.cache)
  }

  /** The stream of a completed exchange, without its resolved record. */
  function Stream<S>(run: Run<(Info, S)>): (r: Run<S>)
    ensures r.stages == run.stages && r.sent == run.sent && r.cache == run.cache
    ensures r.outcome.Completed? <==> run.outcome.Completed?
    ensures run.outcome.Completed? ==> r.outcome.value == run.outcome.value.1
    ensures !run.outcome.Completed? ==> r.outcome.Thrown? == run.outcome.Thrown? && r.outcome.error == run.outcome.error
  {
    match run.outcome
    case Completed(pair) => Run(run.stages, run.sent, Completed(pair.1), run.cache)
    case _ => Run(run.stages, run.sent, Unfinished(run.outcome), run.cache)
  }

  /** `sendRequestRaw`: no body; the future completes with the response stream. */
  function SendRequestRaw<S>(
    g: Generation, cache: Cache, req: Request, args: seq<Atom>,
    send: Envelope -> Result<S, Error>): (r: Run<S>)
    requires Callable(g, cache, req)
    ensures Sound(g, r.cache)
    ensures r.stages <= PlainPipeline
    ensures r.sent.Some? ==> r.sent.value.body.None?
    ensures r.outcome.Thrown? <==> r.sent.None?
    ensures r.outcome.Completed? ==> send(r.sent.value) == Ok(r.outcome.value)
    ensures r.outcome.Failed? ==> send(r.sent.value) == Err(r.outcome.error)
  {
    Stream(Exchange(g, cache, req, args, None, send))
  }

  /** `sendRequest`: no body; a stream the transport delivers is decoded into
      the response type of the request class. */
  function SendRequest<S, D>(
    g: Generation, cache: Cache, req: Request, args: seq<Atom>,
    send: Envelope -> Result<S, Error>, decode: (S, TypeRef) -> Result<D, Error>): (r: Run<D>)
    requires Callable(g, cache, req)
    ensures Sound(g, r.cache)
    ensures r.sent.Some? ==> r.sent.value.body.None?
    ensures Decoding in r.stages <==> r.sent.Some? && send(r.sent.value).Ok?
    ensures r.outcome.Completed? ==>
      && Decoding in r.stages && r.sent.Some? && send(r.sent.value).Ok? && Resolve(g, req.cls).Ok?
      && decode(send(r.sent.value).value, Resolve(g, req.cls).value.responseType) == Ok(r.outcome.value)
    ensures r.sent.Some? && send(r.sent.value).Err? ==> r.outcome == Failed(send(r.sent.value).error)
    ensures r.sent.Some? && send(r.sent.value).Ok? ==>
      && Resolve(g, req.cls).Ok?
      && var decoded := decode(send(r.sent.value).value, Resolve(g, req.cls).value.responseType);
         decoded.Err? ==> r.outcome == Failed(decoded.error)
  {
    var exchanged := Exchange(g, cache, req, args, None, send);
    ThenApply(exchanged, Decoding, (pair: (Info, S)) => decode(pair.1, pair.0.responseType))
  }

  /** `sendRequestAsBody` (legacy: `sendRequestInBody`): like `sendRequest`,
      with the encoded request as the body. */
  function SendRequestAsBody<S, D>(
    g: Generation, cache: Cache, req: Request, args: seq<Atom>,
    send: Envelope -> Result<S, Error>, encode: Request -> Result<string, Error>,
    decode: (S, TypeRef) -> Result<D, Error>): (r: Run<D>)
    requires Callable(g, cache, req)
    ensures Sound(g, r.cache)
    ensures r.sent.Some? ==> r.sent.value.body.Some? && encode(req) == Ok(r.sent.value.body.value)
    ensures Resolve(g, req.cls).Ok? && encode(req).Err? ==>
      r.stages == [Resolving, Encoding] && r.outcome == Thrown(encode(req).error)
    ensures Decoding in r.stages <==> r.sent.Some? && send(r.sent.value).Ok?
    ensures r.outcome.Completed? ==>
      && Decoding in r.stages && r.sent.Some? && send(r.sent.value).Ok? && Resolve(g, req.cls).Ok?
      && decode(send(r.sent.value).value, Resolve(g, req.cls).value.responseType) == Ok(r.outcome.value)
    ensures r.sent.Some? && send(r.sent.value).Err? ==> r.outcome == Failed(send(r.sent.value).error)
    ensures r.sent.Some? && send(r.sent.value).Ok? ==>
      && Resolve(g, req.cls).Ok?
      && var decoded := decode(send(r.sent.value).value, Resolve(g, req.cls).value.responseType);
         decoded.Err? ==> r.outcome == Failed(decoded.error)
  {
    var exchanged := Exchange(g, cache, req, args, Some(encode), send);
    ThenApply(exchanged, Decoding, (pair: (Info, S)) => decode(pair.1, pair.0.responseType))
  }

  /** The exception a failed `close()` completes the future with. */
  function CloseFault(g: Generation): (r: Error)
    ensures r.CloseFailed? && (r.wrapper == UncheckedIO <==> g == Legacy)
  {
    match g
    case Current => CloseFailed(CompletionWrapped)
    case Legacy => CloseFailed(UncheckedIO)
  }

  /** `sendRequestWithoutResponse` (legacy: `sendRequestEmpty`): the raw call,
      whose stream is closed and dropped. `close` says whether closing
      succeeded. */
  function SendRequestWithoutResponse<S>(
    g: Generation, cache: Cache, req: Request, args: seq<Atom>,
    send: Envelope -> Result<S, Error>, close: S -> bool): (r: Run<()>)
    requires Callable(g, cache, req)
    ensures Sound(g, r.cache)
    ensures r.sent.Some? ==> r.sent.value.body.None?
    ensures Closing in r.stages <==> r.sent.Some? && send(r.sent.value).Ok?
    ensures r.outcome.Completed? ==> r.sent.Some? && send(r.sent.value).Ok? && close(send(r.sent.value).value)
    ensures Closing in r.stages && r.sent.Some? && send(r.sent.value).Ok? && !close(send(r.sent.value).value) ==> r.outcome == Failed(CloseFault(g))
  {
    var raw := SendRequestRaw(g, cache, req, args, send);
    ThenApply(raw, Closing, (stream: S) => if close(stream) then Ok(()) else Err(CloseFault(g)))
  }

  // ---------------------------------------------------------------------------
  // How the send methods relate

  /** The steps after resolution stop at the first failure: an encoding
      failure before the URI is built, a URI failure before anything is sent;
      otherwise the envelope holds the body, the URI and the resolved content
      type and method. */
  lemma DeliverSteps<S>(
    g: Generation, info: Info, cache: Cache, req: Request, args: seq<Atom>,
    encode: Option<Request -> Result<string, Error>>, send: Envelope -> Result<S, Error>)
    requires Covers(req.values, info.queryFields)
    ensures var r := Deliver(g, info, cache, req, args, encode, send);
      && (Body(req, encode).Err? ==>
            r.stages == Opening(encode.Some?) && r.outcome == Thrown(Body(req, encode).error))
      && (Body(req, encode).Ok? && FormatUri(info, req.values, args, g).Err? ==>
            r.stages == Opening(encode.Some?) + [Formatting]
            && r.outcome == Thrown(FormatUri(info, req.values, args, g).error))
      && (Body(req, encode).Ok? && FormatUri(info, req.values, args, g).Ok? ==>
            r.stages == Opening(encode.Some?) + [Formatting, Sending]
            && r.sent == Some(Envelope(Body(req, encode).value, FormatUri(info, req.values, args, g).value,
                                       info.contentType, info.requestMethod)))
  {
  }

  /** A class that does not resolve makes every send method throw the
      resolution failure before anything else runs. */
  lemma UnresolvableThrows<S>(
    g: Generation, cache: Cache, req: Request, args: seq<Atom>,
    encode: Option<Request -> Result<string, Error>>, send: Envelope -> Result<S, Error>)
    requires Callable(g, cache, req) && Resolve(g, req.cls).Err?
    ensures var r := Exchange(g, cache, req, args, encode, send);
      r.stages == [Resolving] && r.sent == None && r.outcome == Thrown(Resolve(g, req.cls).error) && r.cache == cache
  {
  }

  /** Two clients whose caches hold only derived records behave alike: what
      is sent and how the call ends do not depend on the cache. */
  lemma CacheIsInvisible<S>(
    g: Generation, cache1: Cache, cache2: Cache, req: Request, args: seq<Atom>,
    encode: Option<Request -> Result<string, Error>>, send: Envelope -> Result<S, Error>)
    requires Callable(g, cache1, req) && Callable(g, cache2, req)
    ensures var r1 := Exchange(g, cache1, req, args, encode, send);
      var r2 := Exchange(g, cache2, req, args, encode, send);
      r1.stages == r2.stages && r1.sent == r2.sent && r1.outcome == r2.outcome
  {
    var lookup1 := GetOrCreate(g, cache1, req.cls);
    var lookup2 := GetOrCreate(g, cache2, req.cls);
    assert lookup1.info == lookup2.info;
    if lookup1.info.Ok? {
      var info := lookup1.info.value;
      ResolvedFieldsAreDeclared(g, req.cls, req.values);
      DeliverSteps(g, info, lookup1.cache, req, args, encode, send);
      DeliverSteps(g, info, lookup2.cache, req, args, encode, send);
    }
  }

  /** `sendRequest` is `sendRequestRaw` followed by decoding: the same
      envelope is sent, a thrown or failed call passes through unchanged and
      only a delivered stream is decoded, into the resolved response type. */
  lemma TypedRefinesRaw<S, D>(
    g: Generation, cache: Cache, req: Request, args: seq<Atom>,
    send: Envelope -> Result<S, Error>, decode: (S, TypeRef) -> Result<D, Error>)
    requires Callable(g, cache, req)
    ensures var raw := SendRequestRaw(g, cache, req, args, send);
      var typed := SendRequest(g, cache, req, args, send, decode);
      && typed.sent == raw.sent && typed.cache == raw.cache
      && typed.stages == raw.stages + (if raw.outcome.Completed? then [Decoding] else [])
      && (!raw.outcome.Completed? ==>
            !typed.outcome.Completed? && typed.outcome.Thrown? == raw.outcome.Thrown? && typed.outcome.error == raw.outcome.error)
      && (raw.outcome.Completed? ==>
            Resolve(g, req.cls).Ok? &&
            var decoded := decode(raw.outcome.value, Resolve(g, req.cls).value.responseType);
            (decoded.Ok? ==> typed.outcome == Completed(decoded.value))
            && (decoded.Err? ==> typed.outcome == Failed(decoded.error)))
  {
  }

  /** `sendRequestAsBody` sends what `sendRequestRaw` sends, except that the
      body is the encoded request. It throws where the raw call throws; once
      the envelope is sent, it runs the raw call's stages plus encoding and,
      only on a delivered stream, decoding, and its future fails with the
      transport's or the decoder's error or completes with the decoded value. */
  lemma AsBodyDiffersOnlyInBody<S, D>(
    g: Generation, cache: Cache, req: Request, args: seq<Atom>,
    send: Envelope -> Result<S, Error>, encode: Request -> Result<string, Error>,
    decode: (S, TypeRef) -> Result<D, Error>)
    requires Callable(g, cache, req) && Resolve(g, req.cls).Ok? && encode(req).Ok?
    ensures var raw := SendRequestRaw(g, cache, req, args, send);
      var withBody := SendRequestAsBody(g, cache, req, args, send, encode, decode);
      && (raw.sent.None? <==> withBody.sent.None?)
      && (raw.sent.Some? ==> withBody.sent == Some(raw.sent.value.(body := Some(encode(req).value))))
      && (raw.outcome.Thrown? ==> withBody.outcome == Thrown(raw.outcome.error))
    ensures var withBody := SendRequestAsBody(g, cache, req, args, send, encode, decode);
      withBody.sent.Some? ==>
        var delivered := send(withBody.sent.value);
        withBody.stages == BodyPipeline + (if delivered.Ok? then [Decoding] else [])
    ensures var withBody := SendRequestAsBody(g, cache, req, args, send, encode, decode);
      withBody.sent.Some? && send(withBody.sent.value).Ok? ==>
        var decoded := decode(send(withBody.sent.value).value, Resolve(g, req.cls).value.responseType);
        withBody.outcome == (if decoded.Ok? then Completed(decoded.value) else Failed(decoded.error))
  {
    var lookup := GetOrCreate(g, cache, req.cls);
    var info := lookup.info.value;
    ResolvedFieldsAreDeclared(g, req.cls, req.values);
    DeliverSteps(g, info, lookup.cache, req, args, None, send);
    DeliverSteps(g, info, lookup.cache, req, args, Some(encode), send);
    AsBodyAfterSending(g, cache, req, args, send, encode, decode);
  }

  /** Once `sendRequestAsBody` has handed over its envelope, the full body
      pipeline has run, and decoding follows exactly a delivered stream. */
  lemma AsBodyAfterSending<S, D>(
    g: Generation, cache: Cache, req: Request, args: seq<Atom>,
    send: Envelope -> Result<S, Error>, encode: Request -> Result<string, Error>,
    decode: (S, TypeRef) -> Result<D, Error>)
    requires Callable(g, cache, req)
    ensures var withBody := SendRequestAsBody(g, cache, req, args, send, encode, decode);
      withBody.sent.Some? ==>
        var delivered := send(withBody.sent.value);
        withBody.stages == BodyPipeline + (if delivered.Ok? then [Decoding] else [])
    ensures var withBody := SendRequestAsBody(g, cache, req, args, send, encode, decode);
      withBody.sent.Some? && send(withBody.sent.value).Ok? ==>
        && Resolve(g, req.cls).Ok?
        && var decoded := decode(send(withBody.sent.value).value, Resolve(g, req.cls).value.responseType);
           withBody.outcome == (if decoded.Ok? then Completed(decoded.value) else Failed(decoded.error))
  {
    var exchanged := Exchange(g, cache, req, args, Some(encode), send);
    var withBody := SendRequestAsBody(g, cache, req, args, send, encode, decode);
    assert withBody == ThenApply(exchanged, Decoding, (pair: (Info, S)) => decode(pair.1, pair.0.responseType));
    if exchanged.sent.Some? {
      assert Sending in exchanged.stages;
      assert exchanged.stages == BodyPipeline;
    }
  }

  /** `sendRequestWithoutResponse` is `sendRequestRaw` followed by closing
      the stream once: it completes with no value when closing succeeds, fails
      with the generation's wrapper when closing throws, and passes a thrown
      or failed raw call on unchanged. */
  lemma WithoutResponseClosesRawStream<S>(
    g: Generation, cache: Cache, req: Request, args: seq<Atom>,
    send: Envelope -> Result<S, Error>, close: S -> bool)
    requires Callable(g, cache, req)
    ensures var raw := SendRequestRaw(g, cache, req, args, send);
      var empty := SendRequestWithoutResponse(g, cache, req, args, send, close);
      && empty.sent == raw.sent && empty.cache == raw.cache
      && empty.stages == raw.stages + (if raw.outcome.Completed? then [Closing] else [])
      && (raw.outcome.Completed? && close(raw.outcome.value) ==> empty.outcome == Completed(()))
      && (raw.outcome.Completed? && !close(raw.outcome.value) ==> empty.outcome == Failed(CloseFault(g)))
      && (!raw.outcome.Completed? ==>
            !empty.outcome.Completed? && empty.outcome.Thrown? == raw.outcome.Thrown? && empty.outcome.error == raw.outcome.error)
  {
  }

  /** For a class that resolves, `sendRequestRaw` hands the transport the URI
      `formatUri` builds, with no body and the resolved content type and
      method; a URI failure is thrown and nothing is sent. */
  lemma RawSendsFormattedUri<S>(
    g: Generation, cache: Cache, req: Request, args: seq<Atom>, send: Envelope -> Result<S, Error>)
    requires Callable(g, cache, req) && Resolve(g, req.cls).Ok?
    ensures Covers(req.values, Resolve(g, req.cls).value.queryFields)
    ensures var info := Resolve(g, req.cls).value;
      var uri := FormatUri(info, req.values, args, g);
      var r := SendRequestRaw(g, cache, req, args, send);
      && (uri.Ok? ==> r.sent == Some(Envelope(None, uri.value, info.contentType, info.requestMethod)))
      && (uri.Err? ==> r.sent == None && r.outcome == Thrown(uri.error))
  {
    var lookup := GetOrCreate(g, cache, req.cls);
    ResolvedFieldsAreDeclared(g, req.cls, req.values);
    DeliverSteps(g, lookup.info.value, lookup.cache, req, args, None, send);
  }
}

=== FILE: info_cache.dfy ===
/** The per-client cache of resolved request information (`cachedInformation`
    with `computeIfAbsent`), modelled sequentially. */
module InfoCache {
  import opened Wrappers
  import opened Model
  import opened RequestInfo
  import opened Resolution

  type Cache = map<ClassDecl, Info>

  /** Every cached record is what resolving its class yields: the cache only
      ever holds derived information. */
  ghost predicate Sound(g: Generation, cache: Cache) {
    forall c :: c in cache ==> Resolve(g, c) == Ok(cache[c])
  }

  /** The answer of a lookup, the cache after it, and whether the derivation
      function ran. */
  datatype Lookup = Lookup(info: Result<Info, Error>, cache: Cache, derived: bool)

  /** `cachedInformation.computeIfAbsent(request.getClass(), ...)`: a hit returns
      the cached record without deriving; a miss derives, and stores the record
      only when derivation succeeds (an exception leaves the map unchanged). */
  function GetOrCreate(g: Generation, cache: Cache, c: ClassDecl): (r: Lookup)
    ensures r.derived <==> c !in cache
    ensures c in cache ==> r.info == Ok(cache[c]) && r.cache == cache
    ensures r.info.Ok? ==> c in r.cache && r.cache[c] == r.info.value
    ensures r.cache.Keys == cache.Keys + (if r.info.Ok? then {c} else {})
    ensures forall d :: d in cache ==> d in r.cache && r.cache[d] == cache[d]
    ensures Sound(g, cache) ==> Sound(g, r.cache) && r.info == Resolve(g, c)
  {
    if c in cache then Lookup(Ok(cache[c]), cache, false)
    else
      match Resolve(g, c)
      case Ok(info) =>
        StoreKeepsSound(g, cache, c, info);
        Lookup(Ok(info), cache[c := info], true)
      case Err(e) => Lookup(Err(e), cache, true)
  }

  lemma StoreKeepsSound(g: Generation, cache: Cache, c: ClassDecl, info: Info)
    requires Resolve(g, c) == Ok(info)
    ensures Sound(g, cache) ==> Sound(g, cache[c := info])
  {
    if Sound(g, cache) {
      var stored := cache[c := info];
      forall d | d in stored ensures Resolve(g, d) == Ok(stored[d]) {
        if d != c {
          assert d in cache && stored[d] == cache[d];
        }
      }
    }
  }

  /** Asking twice for the same class: once the first lookup succeeded, the
      second returns the same record, leaves the cache as it was and derives
      nothing. */
  lemma GetOrCreateIdempotent(g: Generation, cache: Cache, c: ClassDecl)
    ensures var first := GetOrCreate(g, cache, c);
      var second := GetOrCreate(g, first.cache, c);
      first.info.Ok? ==> second == Lookup(first.info, first.cache, false)
  {
  }

  /** Looking classes up in any order yields, for each, what resolving it
      yields: the cache is invisible to callers. */
  lemma {:induction false} CacheIsTransparent(g: Generation, cache: Cache, classes: seq<ClassDecl>)
    requires Sound(g, cache)
    ensures var results := LookupAll(g, cache, classes);
      |results| == |classes| && forall i :: 0 <= i < |classes| ==> results[i] == Resolve(g, classes[i])
    decreases |classes|
  {
    if |classes| > 0 {
      var first := GetOrCreate(g, cache, classes[0]);
      CacheIsTransparent(g, first.cache, classes[1..]);
    }
  }

  /** The answers to a sequence of lookups against one evolving cache. */
  function LookupAll(g: Generation, cache: Cache, classes: seq<ClassDecl>): seq<Result<Info, Error>>
    decreases |classes|
  {
    if |classes| == 0 then []
    else
      var first := GetOrCreate(g, cache, classes[0]);
      [first.info] + LookupAll(g, first.cache, classes[1..])
  }

  /** The cache as an object of the client. */
  class ClientCache {
    const generation: Generation
    var entries: Cache

    ghost predicate Valid()
      reads this
    {
      Sound(generation, entries)
    }

    constructor (g: Generation)
      ensures Valid() && generation == g && entries == map[]
    {
      generation := g;
      entries := map[];
    }

    /** `getOrCreateInfo`. */
    method GetOrCreateInfo(c: ClassDecl) returns (r: Result<Info, Error>)
      requires Valid()
      modifies this
      ensures Valid()
      ensures r == Resolve(generation, c)
      ensures old(c in entries) ==> entries == old(entries)
      ensures entries.Keys == old(entries.Keys) + (if r.Ok? then {c} else {})
    {
      var lookup := GetOrCreate(generation, entries, c);
      entries := lookup.cache;
      r := lookup.info;
    }
  }
}

=== FILE: message_format.dfy ===
/** The part of `java.text.MessageFormat` the client relies on: patterns made
    of literal characters and plain `{n}` argument placeholders, formatted with
    arguments that are already strings. */
module MessageFormat {
  import opened Wrappers
  import opened Seqs
  import opened Text

  /** One element of a parsed pattern: a literal character or the placeholder
      for argument `index`. */
  datatype Piece = Char(c: char) | Hole(index: nat)

  type Template = seq<Piece>

  /** Why a pattern is rejected. `UnmatchedBraces`, `EmptyArgumentNumber` and
      `BadArgumentNumber` (a number beyond `Integer.MAX_VALUE`) are the JDK's
      own `IllegalArgumentException`s. `NotModelled` marks what this model does
      not interpret: quoting, format types, argument numbers other than plain
      ASCII digits, and braces nested inside a placeholder. */
  datatype PatternFault = UnmatchedBraces | EmptyArgumentNumber | BadArgumentNumber | NotModelled

  /** `Integer.MAX_VALUE`: argument numbers are parsed as a Java `int`. */
  const MaxArgumentNumber: nat := 0x7fff_ffff

  /** A character that stands for itself in a pattern. */
  predicate LiteralChar(c: char) {
    c != '{' && c != '\''
  }

  predicate LiteralText(s: string) {
    forall i :: 0 <= i < |s| ==> LiteralChar(s[i])
  }

  /** A template whose text form parses back to it: no literal character
      needs quoting and every argument number fits in an `int`. */
  predicate Printable(t: Template) {
    forall i :: 0 <= i < |t| ==>
      match t[i]
      case Char(c) => LiteralChar(c)
      case Hole(n) => n <= MaxArgumentNumber
  }

  /** The template that reproduces `s` character for character. */
  function Literal(s: string): (t: Template)
    ensures |t| == |s|
    ensures forall i :: 0 <= i < |s| ==> t[i] == Char(s[i])
  {
    seq(|s|, i requires 0 <= i < |s| => Char(s[i]))
  }

  /** The literal template of joined text is the joined literal templates. */
  lemma LiteralAppend(a: string, b: string)
    ensures Literal(a + b) == Literal(a) + Literal(b)
  {
  }

  function IsCloseBrace(c: char): bool {
    c == '}'
  }

  /** `new MessageFormat(pattern)`, restricted to the modelled subset. An
      accepted pattern never leaves a `{` or a quote as literal text, and text
      without either stands for itself. A `{` without a matching `}` is
      rejected, unless another `{` follows it: the JDK then counts nested
      braces and drops the unfinished placeholder silently, which is not
      modelled. */
  function Parse(s: string): (r: Result<Template, PatternFault>)
    ensures r.Ok? ==> Printable(r.value)
    ensures LiteralText(s) ==> r == Ok(Literal(s))
    decreases |s|
  {
    if |s| == 0 then Ok([])
    else if s[0] == '\'' then Err(NotModelled)
    else if s[0] == '{' then
      match FirstIndex(s, IsCloseBrace, 1)
      case None => if '{' in s[1..] then Err(NotModelled) else Err(UnmatchedBraces)
      case Some(k) =>
        var number := s[1..k];
        if |number| == 0 then Err(EmptyArgumentNumber)
        else if !AllDigits(number) then Err(NotModelled)
        else if DigitsValue(number) > MaxArgumentNumber then Err(BadArgumentNumber)
        else
          var rest :- Parse(s[k + 1..]);
          Ok([Hole(DigitsValue(number))] + rest)
    else
      assert LiteralText(s) ==> LiteralText(s[1..]);
      var rest :- Parse(s[1..]);
      assert LiteralText(s) ==> [Char(s[0])] + rest == Literal(s);
      Ok([Char(s[0])] + rest)
  }

  /** The text of one piece; also what `MessageFormat.format` writes for a
      placeholder whose argument is missing. */
  function PieceText(p: Piece): string {
    match p
    case Char(c) => [c]
    case Hole(n) => "{" + NatToString(n) + "}"
  }

  /** The pattern text of a template. */
  function Print(t: Template): string {
    if |t| == 0 then "" else PieceText(t[0]) + Print(t[1..])
  }

  /** No placeholder of `t` has an argument among `args`. */
  predicate Unfilled(t: Template, args: seq<string>) {
    forall i :: 0 <= i < |t| ==> t[i].Hole? ==> t[i].index >= |args|
  }

  /** `MessageFormat.format` with string arguments: argument `n` replaces
      `{n}` verbatim; a placeholder without an argument is left as written. */
  function Format(t: Template, args: seq<string>): (r: string)
    ensures Unfilled(t, args) ==> r == Print(t)
  {
    if |t| == 0 then "" else PieceFormat(t[0], args) + Format(t[1..], args)
  }

  /** What one piece formats to: a literal character itself, a placeholder
      its argument, or its own text when the argument is missing. */
  function PieceFormat(p: Piece, args: seq<string>): string {
    match p
    case Char(c) => [c]
    case Hole(n) => if n < |args| then args[n] else PieceText(p)
  }

  /** A literal prefix without braces or quotes parses to itself and does not
      change how the rest of the pattern parses. */
  lemma {:induction false} ParseLiteralPrefix(a: string, b: string)
    requires LiteralText(a)
    ensures Parse(a + b) == match Parse(b)
      case Ok(t) => Ok(Literal(a) + t)
      case Err(f) => Err(f)
    decreases |a|
  {
    if |a| == 0 {
      assert a + b == b;
      assert Literal(a) == [];
      match Parse(b)
      case Ok(t) => assert Literal(a) + t == t;
      case Err(f) =>
    } else {
      assert (a + b)[0] == a[0];
      assert (a + b)[1..] == a[1..] + b;
      ParseLiteralPrefix(a[1..], b);
      match Parse(b)
      case Ok(t) =>
        assert [Char(a[0])] + (Literal(a[1..]) + t) == Literal(a) + t;
      case Err(f) =>
    }
  }

  /** The decimal placeholder `{n}` followed by more pattern text parses to
      the hole for `n` followed by whatever that text parses to. */
  lemma ParseHole(n: nat, rest: string)
    requires n <= MaxArgumentNumber
    ensures Parse(PieceText(Hole(n)) + rest) == match Parse(rest)
      case Ok(t) => Ok([Hole(n)] + t)
      case Err(f) => Err(f)
  {
    var d := NatToString(n);
    var s := "{" + d + "}" + rest;
    assert PieceText(Hole(n)) + rest == s;
    var k := |d| + 1;
    assert s[k] == '}';
    assert forall j :: 1 <= j < k ==> s[j] == d[j - 1];
    var found := FirstIndex(s, IsCloseBrace, 1);
    assert found == Some(k) by {
      assert !(found.None?) by { assert IsCloseBrace(s[k]); }
    }
    assert s[1..k] == d;
    assert s[k + 1..] == rest;
    DigitsValueOfNatToString(n);
  }

  /** A `{` that is never closed, with no other `{` after it, makes the whole
      pattern fail, whatever literal text comes before it. */
  lemma UnmatchedBraceRejected(prefix: string, tail: string)
    requires LiteralText(prefix) && '}' !in tail && '{' !in tail
    ensures Parse(prefix + "{" + tail) == Err(UnmatchedBraces)
  {
    var s := "{" + tail;
    var found := FirstIndex(s, IsCloseBrace, 1);
    assert found.None? by {
      assert forall j :: 1 <= j < |s| ==> s[j] == tail[j - 1];
    }
    assert s[1..] == tail;
    assert Parse(s) == Err(UnmatchedBraces);
    ParseLiteralPrefix(prefix, s);
    assert prefix + "{" + tail == prefix + s;
  }

  /** An argument number beyond `Integer.MAX_VALUE` makes the whole pattern
      fail, whatever literal text comes before it and whatever follows. */
  lemma ArgumentNumberTooLarge(prefix: string, n: nat, rest: string)
    requires LiteralText(prefix) && n > MaxArgumentNumber
    ensures Parse(prefix + PieceText(Hole(n)) + rest) == Err(BadArgumentNumber)
  {
    var d := NatToString(n);
    var s := "{" + d + "}" + rest;
    assert PieceText(Hole(n)) + rest == s;
    var k := |d| + 1;
    assert s[k] == '}';
    assert forall j :: 1 <= j < k ==> s[j] == d[j - 1];
    var found := FirstIndex(s, IsCloseBrace, 1);
    assert found == Some(k) by {
      assert !(found.None?) by { assert IsCloseBrace(s[k]); }
    }
    assert s[1..k] == d;
    DigitsValueOfNatToString(n);
    assert Parse(s) == Err(BadArgumentNumber);
    ParseLiteralPrefix(prefix, s);
    assert prefix + PieceText(Hole(n)) + rest == prefix + s;
  }

  /** Literal text, a placeholder and an accepted remainder parse piece by
      piece: the pattern shape of every request URI. */
  lemma ParseLiteralThenHole(prefix: string, n: nat, rest: string)
    requires LiteralText(prefix) && n <= MaxArgumentNumber && Parse(rest).Ok?
    ensures Parse(prefix + PieceText(Hole(n)) + rest) == Ok(Literal(prefix) + [Hole(n)] + Parse(rest).value)
  {
    var t := Parse(rest).value;
    var tail := PieceText(Hole(n)) + rest;
    ParseHole(n, rest);
    assert Parse(tail) == Ok([Hole(n)] + t);
    ParseLiteralPrefix(prefix, tail);
    assert Parse(prefix + tail) == Ok(Literal(prefix) + ([Hole(n)] + t));
    assert prefix + PieceText(Hole(n)) + rest == prefix + tail;
    assert Literal(prefix) + ([Hole(n)] + t) == Literal(prefix) + [Hole(n)] + t;
  }

  /** Literal text ending in a placeholder parses piece by piece. */
  lemma ParseLiteralThenLastHole(prefix: string, n: nat)
    requires LiteralText(prefix) && n <= MaxArgumentNumber
    ensures Parse(prefix + PieceText(Hole(n))) == Ok(Literal(prefix) + [Hole(n)])
  {
    assert Parse("") == Ok([]);
    ParseLiteralThenHole(prefix, n, "");
    assert prefix + PieceText(Hole(n)) + "" == prefix + PieceText(Hole(n));
    assert Literal(prefix) + [Hole(n)] + [] == Literal(prefix) + [Hole(n)];
  }

  /** Printing a template whose literal characters need no quoting and parsing
      the text gives the template back. */
  lemma {:induction false} ParsePrint(t: Template)
    requires Printable(t)
    ensures Parse(Print(t)) == Ok(t)
  {
    if |t| > 0 {
      ParsePrint(t[1..]);
      match t[0]
      case Char(c) =>
        var s := Print(t);
        assert s == [c] + Print(t[1..]);
        assert s[0] == c && s[1..] == Print(t[1..]);
        assert [Char(c)] + t[1..] == t;
      case Hole(n) =>
        ParseHole(n, Print(t[1..]));
        assert [Hole(n)] + t[1..] == t;
    }
  }

  /** Formatting works piece by piece, so a template can be formatted in parts. */
  lemma {:induction false} FormatAppend(t1: Template, t2: Template, args: seq<string>)
    ensures Format(t1 + t2, args) == Format(t1, args) + Format(t2, args)
  {
    if |t1| > 0 {
      assert (t1 + t2)[0] == t1[0];
      assert (t1 + t2)[1..] == t1[1..] + t2;
      FormatAppend(t1[1..], t2, args);
      var head := PieceFormat(t1[0], args);
      assert Format(t1 + t2, args) == head + (Format(t1[1..], args) + Format(t2, args));
    } else {
      assert t1 + t2 == t2;
    }
  }

  /** Literal text comes out of formatting unchanged, whatever the arguments. */
  lemma {:induction false} FormatLiteral(s: string, args: seq<string>)
    ensures Format(Literal(s), args) == s
  {
    if |s| > 0 {
      FormatLiteral(s[1..], args);
      assert Literal(s)[1..] == Literal(s[1..]);
      assert s == [s[0]] + s[1..];
    }
  }

  /** A placeholder with an argument formats as that argument. */
  lemma FormatHole(n: nat, args: seq<string>)
    requires n < |args|
    ensures Format([Hole(n)], args) == args[n]
  {
    assert Format([Hole(n)][1..], args) == "";
  }

  /** Literal text followed by a placeholder that has an argument formats as
      the text followed by that argument. */
  lemma FormatLiteralThenHole(prefix: string, n: nat, args: seq<string>)
    requires n < |args|
    ensures Format(Literal(prefix) + [Hole(n)], args) == prefix + args[n]
  {
    FormatAppend(Literal(prefix), [Hole(n)], args);
    FormatLiteral(prefix, args);
    FormatHole(n, args);
  }

  /** With no arguments at all, formatting reproduces the pattern text: every
      placeholder stays in the output as `{n}` and nothing fails. */
  lemma {:induction false} FormatWithoutArguments(t: Template)
    ensures Format(t, []) == Print(t)
  {
    if |t| > 0 {
      FormatWithoutArguments(t[1..]);
    }
  }
}

=== FILE: model.dfy ===
/** Values, field slots and errors shared by both generations of the client. */
module Model {
  import opened Text
  import MessageFormat

  /** The two generations of the abstract client: `AbstractClient` with its
      nested `RequestInfo` (Legacy) and `AbstractSpigetClient` with the
      top-level `RequestInfo` (Current). */
  datatype Generation = Legacy | Current

  /** A Java type as the codec sees it: a raw type and its type arguments. */
  datatype TypeRef = TypeRef(raw: string, args: seq<TypeRef>)

  /** A single Java value as far as its string form matters: `null`, an
      integer, a string, or any other object whose `toString` is given. */
  datatype Atom = Null | Int(i: int) | Str(s: string) | Opaque(shown: string)

  /** `Objects.toString` / `String.valueOf`: "null" for null, decimal digits
      with no grouping for integers, a string itself, otherwise `toString()`. */
  function Show(a: Atom): (r: string)
    ensures a.Int? ==>
      && |r| > 0
      && (r[0] == '-' ==> AllDigits(r[1..]))
      && (r[0] != '-' ==> AllDigits(r))
      && SignedValue(r) == a.i
    ensures a.Null? ==> r == "null"
    ensures a.Str? ==> r == a.s
    ensures a.Opaque? ==> r == a.shown
  {
    match a
    case Null => "null"
    case Int(i) => IntToStringRoundTrip(i); IntToString(i)
    case Str(s) => s
    case Opaque(shown) => shown
  }

  function ShowAll(atoms: seq<Atom>): (r: seq<string>)
    ensures |r| == |atoms|
    ensures forall i :: 0 <= i < |atoms| ==> r[i] == Show(atoms[i])
  {
    seq(|atoms|, i requires 0 <= i < |atoms| => Show(atoms[i]))
  }

  /** The value held by a request field: a single value or a collection whose
      elements are listed in iteration order. */
  datatype Value = Scalar(a: Atom) | Coll(items: seq<Atom>)

  /** An exception raised while a field is read or rendered: a reflective
      failure, or any other throwable named by its class. */
  datatype Fault = Reflective | Unchecked(exception: string)

  /** What reading a field of a request instance yields. */
  datatype Slot = Holds(v: Value) | Throws(fault: Fault)

  /** The wrapper `sendRequestWithoutResponse` / `sendRequestEmpty` puts
      around an `IOException` from closing the stream. */
  datatype CloseWrapper = CompletionWrapped | UncheckedIO

  /** Every way a call can fail, named after the exception the source raises. */
  datatype Error =
    | NoRequestAnnotation                           // NullPointerException "no request annotation is present"
    | MissingTypeParameter                          // IllegalArgumentException "Missing type parameter."
    | FieldSetupFailed(field: string)               // IllegalArgumentException around a getter that cannot be made
    | FieldInaccessible(field: string)              // InaccessibleObjectException from setAccessible
    | BadPattern(fault: MessageFormat.PatternFault) // IllegalArgumentException from MessageFormat
    | FieldReadFailed(field: string, cause: Fault)  // IllegalStateException "Unable to use reflection on field"
    | Raised(cause: Fault)                          // an exception escaping the builder unwrapped
    | UnexpectedStatus(code: int)                   // a backend's non-2xx rejection
    | TransportFailed(reason: string)               // any other backend failure
    | CodecFailed(reason: string)                   // the JSON mapper could not encode or decode
    | CloseFailed(wrapper: CloseWrapper)            // closing the response stream threw an IOException
}

=== FILE: request_info.dfy ===
/** The resolved descriptor of a request class and `formatUri`, which turns it,
    a request instance and the positional arguments into the request URI. */
module RequestInfo {
  import opened Wrappers
  import opened Seqs
  import opened Text
  import opened MessageFormat
  import opened Model

  /** A query parameter: the key written on the wire and the Java field whose
      value it carries. */
  datatype QueryField = QueryField(key: string, field: string)

  /** The cached, per-class record: response type, content type, parsed URI
      template, HTTP method and the query fields in declaration order. */
  datatype Info = Info(
    responseType: TypeRef,
    contentType: string,
    template: Template,
    requestMethod: string,
    queryFields: seq<QueryField>)

  /** A request instance: the value of each field, by field name. */
  type Instance = map<string, Slot>

  /** Every query field names a field the instance has. */
  predicate Covers(inst: Instance, fields: seq<QueryField>) {
    forall i :: 0 <= i < |fields| ==> fields[i].field in inst
  }

  /** The text a field value contributes to the query, or None when the field
      is skipped. Null and empty collections are skipped; a collection renders
      as its elements joined by commas; anything else renders as its string form. */
  function ValueText(v: Value): (r: Option<string>)
    ensures r.None? <==> v == Scalar(Null) || v == Coll([])
    ensures v.Scalar? && v.a != Null ==> r == Some(Show(v.a))
    ensures v.Coll? && v.items != [] ==> r == Some(JoinComma(ShowAll(v.items)))
  {
    match v
    case Scalar(a) => if a == Null then None else Some(Show(a))
    case Coll(items) =>
      if |items| == 0 then None
      else
        var built := CommaTerminated(ShowAll(items));
        DropTrailingComma(ShowAll(items));
        Some(built[..|built| - 1])
  }

  /** The exception a failed field read surfaces as. The current client wraps
      every throwable into an IllegalStateException; the legacy client wraps
      only reflective failures and lets anything else escape as it is. */
  function ReadFailure(g: Generation, q: QueryField, f: Fault): (r: Error)
    ensures r == FieldReadFailed(q.field, f) || r == Raised(f)
    ensures r == Raised(f) <==> g == Legacy && f != Reflective
  {
    match g
    case Current => FieldReadFailed(q.field, f)
    case Legacy => if f == Reflective then FieldReadFailed(q.field, f) else Raised(f)
  }

  /** One `key=value` segment behind its separator. */
  function Segment(separator: string, key: string, text: string): string {
    separator + key + "=" + text
  }

  /** The query loop of `formatUri`: fields are visited in order, `written`
      records whether a parameter has been appended yet, and the first field
      that cannot be read aborts the whole URI. */
  function AppendQuery(fields: seq<QueryField>, inst: Instance, g: Generation, written: bool): (r: Result<string, Error>)
    requires Covers(inst, fields)
    ensures r.Ok? <==> Readable(inst, fields)
  {
    if |fields| == 0 then Ok("")
    else
      assert forall i :: 0 <= i < |fields| - 1 ==> fields[1..][i] == fields[i + 1];
      match inst[fields[0].field]
      case Throws(f) => Err(ReadFailure(g, fields[0], f))
      case Holds(v) =>
        match ValueText(v)
        case None => AppendQuery(fields[1..], inst, g, written)
        case Some(text) =>
          var rest :- AppendQuery(fields[1..], inst, g, true);
          Ok(Segment(if written then "&" else "?", fields[0].key, text) + rest)
  }

  // ---------------------------------------------------------------------------
  // Reference description of the query string

  /** No query field of the instance throws when read. */
  predicate Readable(inst: Instance, fields: seq<QueryField>)
    requires Covers(inst, fields)
  {
    forall i :: 0 <= i < |fields| ==> inst[fields[i].field].Holds?
  }

  predicate IsThrowing(s: Slot) {
    s.Throws?
  }

  /** The position of the first query field whose read throws. */
  function FirstFault(inst: Instance, fields: seq<QueryField>): (i: nat)
    requires Covers(inst, fields) && !Readable(inst, fields)
    ensures i < |fields| && inst[fields[i].field].Throws?
    ensures forall j :: 0 <= j < i ==> inst[fields[j].field].Holds?
  {
    var slots := seq(|fields|, j requires 0 <= j < |fields| => inst[fields[j].field]);
    var found := FirstIndex(slots, IsThrowing, 0);
    assert found.Some? by {
      var j :| 0 <= j < |fields| && !inst[fields[j].field].Holds?;
      assert IsThrowing(slots[j]);
    }
    forall j | 0 <= j < found.value ensures inst[fields[j].field].Holds? {
      assert !IsThrowing(slots[j]);
    }
    found.value
  }

  /** The (key, text) pairs a readable instance emits, in declaration order. */
  function Emitted(inst: Instance, fields: seq<QueryField>): seq<(string, string)>
    requires Covers(inst, fields) && Readable(inst, fields)
  {
    if |fields| == 0 then []
    else
      var rest := Emitted(inst, fields[1..]);
      match ValueText(inst[fields[0].field].v)
      case None => rest
      case Some(text) => [(fields[0].key, text)] + rest
  }

  /** Pairs each behind an "&". */
  function Continuation(pairs: seq<(string, string)>): string {
    if |pairs| == 0 then "" else Segment("&", pairs[0].0, pairs[0].1) + Continuation(pairs[1..])
  }

  /** The query string for a list of pairs: empty when there are none,
      otherwise the first pair behind "?" and every later one behind "&". */
  function Assemble(pairs: seq<(string, string)>): string {
    if |pairs| == 0 then "" else Segment("?", pairs[0].0, pairs[0].1) + Continuation(pairs[1..])
  }

  /** The query loop produces the assembled pairs when every field can be read,
      and otherwise fails with the first unreadable field's exception. */
  lemma {:induction false} AppendQueryMatchesReference(fields: seq<QueryField>, inst: Instance, g: Generation, written: bool)
    requires Covers(inst, fields)
    ensures Readable(inst, fields) ==>
      AppendQuery(fields, inst, g, written)
        == Ok(if written then Continuation(Emitted(inst, fields)) else Assemble(Emitted(inst, fields)))
    ensures !Readable(inst, fields) ==>
      var i := FirstFault(inst, fields);
      AppendQuery(fields, inst, g, written) == Err(ReadFailure(g, fields[i], inst[fields[i].field].fault))
  {
    if |fields| > 0 {
      var tail := fields[1..];
      assert Covers(inst, tail);
      AppendQueryMatchesReference(tail, inst, g, true);
      AppendQueryMatchesReference(tail, inst, g, written);
      if Readable(inst, fields) {
        assert Readable(inst, tail);
      } else if inst[fields[0].field].Holds? {
        assert !Readable(inst, tail) by {
          var j :| 0 <= j < |fields| && !inst[fields[j].field].Holds?;
          assert j > 0 && !inst[tail[j - 1].field].Holds?;
        }
        var i := FirstFault(inst, fields);
        var i' := FirstFault(inst, tail);
        assert i == i' + 1 by {
          assert inst[fields[i' + 1].field].Throws?;
          assert forall j :: 1 <= j < i' + 1 ==> inst[fields[j].field].Holds? by {
            forall j | 1 <= j < i' + 1 ensures inst[fields[j].field].Holds? {
              assert fields[j] == tail[j - 1];
            }
          }
        }
      }
    }
  }

  /** Unlike a query field, a null positional argument is not skipped: its
      placeholder in the path is filled with the text "null". */
  lemma NullArgumentPrintsNull(n: nat, args: seq<Atom>)
    requires n < |args| && args[n] == Null
    ensures Format([Hole(n)], ShowAll(args)) == "null"
  {
    FormatHole(n, ShowAll(args));
  }

  /** A field whose value is null or an empty collection contributes nothing:
      the query comes out as if the field were not declared at all. */
  lemma {:induction false} SkippedFieldContributesNothing(fields: seq<QueryField>, i: nat, inst: Instance, g: Generation, written: bool)
    requires Covers(inst, fields) && i < |fields|
    requires inst[fields[i].field] == Holds(Scalar(Null)) || inst[fields[i].field] == Holds(Coll([]))
    ensures Covers(inst, fields[..i] + fields[i + 1..])
    ensures AppendQuery(fields, inst, g, written) == AppendQuery(fields[..i] + fields[i + 1..], inst, g, written)
  {
    var without := fields[..i] + fields[i + 1..];
    assert Covers(inst, without) by {
      forall j | 0 <= j < |without| ensures without[j].field in inst {
        if j < i { assert without[j] == fields[j]; } else { assert without[j] == fields[j + 1]; }
      }
    }
    if i == 0 {
      assert without == fields[1..];
    } else {
      var tail := fields[1..];
      assert Covers(inst, tail);
      assert without[0] == fields[0];
      assert without[1..] == tail[..i - 1] + tail[i..];
      SkippedFieldContributesNothing(tail, i - 1, inst, g, written);
      SkippedFieldContributesNothing(tail, i - 1, inst, g, true);
    }
  }

  /** Emitted pairs keep declaration order: the pairs of the first fields come
      before the pairs of the fields declared after them. */
  lemma {:induction false} EmittedAppend(inst: Instance, a: seq<QueryField>, b: seq<QueryField>)
    requires Covers(inst, a + b) && Readable(inst, a + b)
    ensures Covers(inst, a) && Readable(inst, a)
    ensures Covers(inst, b) && Readable(inst, b)
    ensures Emitted(inst, a + b) == Emitted(inst, a) + Emitted(inst, b)
  {
    assert forall i :: 0 <= i < |a| ==> a[i] == (a + b)[i];
    assert forall i :: 0 <= i < |b| ==> b[i] == (a + b)[|a| + i];
    if |a| == 0 {
      assert a + b == b;
    } else {
      assert (a + b)[0] == a[0];
      assert (a + b)[1..] == a[1..] + b;
      EmittedAppend(inst, a[1..], b);
    }
  }

  // ---------------------------------------------------------------------------
  // formatUri

  /** Text put in front of a successful result; a failure passes through. */
  function Prepend(prefix: string, r: Result<string, Error>): Result<string, Error> {
    match r
    case Ok(t) => Ok(prefix + t)
    case Err(e) => Err(e)
  }

  lemma PrependTwice(a: string, b: string, r: Result<string, Error>)
    ensures Prepend(a, Prepend(b, r)) == Prepend(a + b, r)
  {
    if r.Ok? {
      assert a + (b + r.value) == (a + b) + r.value;
    }
  }

  /** `formatUri`: the template formatted with the stringified positional
      arguments, followed by the query string. */
  function FormatUri(info: Info, inst: Instance, args: seq<Atom>, g: Generation): (r: Result<string, Error>)
    requires Covers(inst, info.queryFields)
    ensures r.Ok? <==> Readable(inst, info.queryFields)
    ensures r.Ok? ==> r.value == Format(info.template, ShowAll(args)) + Assemble(Emitted(inst, info.queryFields))
    ensures r.Ok? && Emitted(inst, info.queryFields) == [] ==> r.value == Format(info.template, ShowAll(args))
    ensures r.Err? ==>
      var i := FirstFault(inst, info.queryFields);
      r.error == ReadFailure(g, info.queryFields[i], inst[info.queryFields[i].field].fault)
  {
    AppendQueryMatchesReference(info.queryFields, inst, g, false);
    var path := Format(info.template, ShowAll(args));
    var query :- AppendQuery(info.queryFields, inst, g, false);
    Ok(path + query)
  }

  /** The loop of `formatUri` as written: the arguments are stringified, the
      template formatted, then the query appended to one buffer. */
  method BuildUri(info: Info, inst: Instance, args: seq<Atom>, g: Generation) returns (r: Result<string, Error>)
    requires Covers(inst, info.queryFields)
    ensures Readable(inst, info.queryFields) ==>
      r == Ok(Format(info.template, ShowAll(args)) + Assemble(Emitted(inst, info.queryFields)))
    ensures !Readable(inst, info.queryFields) ==>
      var i := FirstFault(inst, info.queryFields);
      r == Err(ReadFailure(g, info.queryFields[i], inst[info.queryFields[i].field].fault))
  {
    var stringified := StringifyArgs(args);
    var path := Format(info.template, stringified);
    var query := BuildQuery(info.queryFields, inst, g);
    AppendQueryMatchesReference(info.queryFields, inst, g, false);
    match query
    case Err(e) => r := Err(e);
    case Ok(text) => r := Ok(path + text);
  }

  /** One turn of the query loop, on the fields from position `i` on. */
  lemma QueryStep(fields: seq<QueryField>, i: nat, inst: Instance, g: Generation, written: bool)
    requires Covers(inst, fields) && i < |fields|
    ensures Covers(inst, fields[i..]) && Covers(inst, fields[i + 1..])
    ensures inst[fields[i].field].Throws? ==>
      AppendQuery(fields[i..], inst, g, written) == Err(ReadFailure(g, fields[i], inst[fields[i].field].fault))
    ensures inst[fields[i].field].Holds? && ValueText(inst[fields[i].field].v).None? ==>
      AppendQuery(fields[i..], inst, g, written) == AppendQuery(fields[i + 1..], inst, g, written)
    ensures inst[fields[i].field].Holds? && ValueText(inst[fields[i].field].v).Some? ==>
      AppendQuery(fields[i..], inst, g, written)
        == Prepend(Segment(if written then "&" else "?", fields[i].key, ValueText(inst[fields[i].field].v).value),
                   AppendQuery(fields[i + 1..], inst, g, true))
  {
    assert fields[i..][0] == fields[i] && fields[i..][1..] == fields[i + 1..];
  }

  /** The arguments' string forms, one by one. */
  method StringifyArgs(args: seq<Atom>) returns (stringified: seq<string>)
    ensures stringified == ShowAll(args)
  {
    stringified := [];
    for k := 0 to |args|
      invariant stringified == ShowAll(args[..k])
    {
      stringified := stringified + [Show(args[k])];
    }
    assert args[..|args|] == args;
  }

  /** The query loop with its buffer and its `oneFieldWritten` flag; the first
      field that cannot be read ends it. */
  method BuildQuery(fields: seq<QueryField>, inst: Instance, g: Generation) returns (r: Result<string, Error>)
    requires Covers(inst, fields)
    ensures r == AppendQuery(fields, inst, g, false)
  {
    var query := "";
    var written := false;
    var i := 0;
    assert fields[0..] == fields;
    assert Prepend(query, AppendQuery(fields, inst, g, written)) == AppendQuery(fields, inst, g, false) by {
      var whole := AppendQuery(fields, inst, g, false);
      if whole.Ok? { assert "" + whole.value == whole.value; }
    }
    while i < |fields|
      invariant 0 <= i <= |fields|
      invariant Covers(inst, fields[i..])
      invariant AppendQuery(fields, inst, g, false) == Prepend(query, AppendQuery(fields[i..], inst, g, written))
    {
      var q := fields[i];
      QueryStep(fields, i, inst, g, written);
      var slot := inst[q.field];
      if slot.Throws? {
        return Err(ReadFailure(g, q, slot.fault));
      }
      var text := ValueText(slot.v);
      if text.Some? {
        var segment := Segment(if written then "&" else "?", q.key, text.value);
        PrependTwice(query, segment, AppendQuery(fields[i + 1..], inst, g, true));
        query := query + segment;
        written := true;
      }
      i := i + 1;
    }
    assert fields[i..] == [];
    assert query + "" == query;
    r := Ok(query);
  }
}

=== FILE: requests.dfy ===
/** The three request descriptors of the core, described as reflection sees
    them, their field values, and the call each `exec` makes. */
module Requests {
  import opened Wrappers
  import opened Text
  import opened MessageFormat
  import opened Model
  import opened RequestInfo
  import opened Resolution
  import opened InfoCache
  import opened Dispatch

  /** The `SpigetClient client` field every descriptor holds: transient, so
      never a query field. */
  const ClientField: FieldDecl := FieldDecl("client", false, true, false, None, true)

  /** The value of the `client` field, which is never rendered. */
  const ClientSlot: Slot := Holds(Scalar(Opaque("client")))

  /** A private field annotated `@ExcludeQuery`. */
  function ExcludedField(name: string): FieldDecl {
    FieldDecl(name, false, false, true, None, true)
  }

  /** Plain private fields: query parameters under their own names. */
  function PlainFields(names: seq<string>): seq<FieldDecl> {
    seq(|names|, i requires 0 <= i < |names| => FieldDecl(names[i], false, false, false, None, true))
  }

  /** The query fields of plain fields: wire name and field name coincide. */
  function SameNames(names: seq<string>): seq<QueryField> {
    seq(|names|, i requires 0 <= i < |names| => QueryField(names[i], names[i]))
  }

  /** A `GET` descriptor as reflection sees it: `@RequestData(uri, "GET")`,
      `implements Request<response>`, some fields that never reach the query,
      then plain fields. */
  function Descriptor(
    name: string, uri: string, contentType: string, response: TypeRef,
    hidden: seq<FieldDecl>, names: seq<string>): ClassDecl
  {
    ClassDecl(
      name,
      Some(RequestData(uri, "GET", contentType)),
      [GenericInterface(RequestInterface, [response])],
      hidden + PlainFields(names))
  }

  /** Fields that are all eligible are all selected. */
  lemma {:induction false} EligibleOfEligible(fields: seq<FieldDecl>)
    requires forall i :: 0 <= i < |fields| ==> QueryEligible(fields[i])
    ensures Eligible(fields) == fields
  {
    if |fields| > 0 {
      EligibleOfEligible(fields[1..]);
    }
  }

  /** Fields that are none of them eligible are none of them selected. */
  lemma {:induction false} EligibleOfIneligible(fields: seq<FieldDecl>)
    requires forall i :: 0 <= i < |fields| ==> !QueryEligible(fields[i])
    ensures Eligible(fields) == []
  {
    if |fields| > 0 {
      EligibleOfIneligible(fields[1..]);
    }
  }

  /** Every field of a descriptor is accessible. */
  lemma DescriptorAccessible(hidden: seq<FieldDecl>, names: seq<string>)
    requires forall i :: 0 <= i < |hidden| ==> !QueryEligible(hidden[i])
    ensures AllAccessible(hidden + PlainFields(names))
  {
    var plain := PlainFields(names);
    var fields := hidden + plain;
    forall i | 0 <= i < |fields| ensures !SetupFails(fields[i]) {
      if i < |hidden| {
        assert fields[i] == hidden[i];
      } else {
        assert fields[i] == plain[i - |hidden|];
      }
    }
  }

  /** A descriptor's query fields are its plain fields, and every one of them
      can be read. */
  lemma DescriptorSelection(g: Generation, hidden: seq<FieldDecl>, names: seq<string>)
    requires forall i :: 0 <= i < |hidden| ==> !QueryEligible(hidden[i])
    ensures AllAccessible(hidden + PlainFields(names))
    ensures KeyedFields(g, Eligible(hidden + PlainFields(names))) == SameNames(names)
  {
    var plain := PlainFields(names);
    DescriptorAccessible(hidden, names);
    EligibleAppend(hidden, plain);
    EligibleOfIneligible(hidden);
    EligibleOfEligible(plain);
    assert [] + plain == plain;
    PlainKeys(g, names);
  }

  /** Plain fields are keyed by their own names in either generation. */
  lemma PlainKeys(g: Generation, names: seq<string>)
    ensures KeyedFields(g, PlainFields(names)) == SameNames(names)
  {
    var plain := PlainFields(names);
    var keyed := KeyedFields(g, plain);
    forall i | 0 <= i < |keyed| ensures keyed[i] == SameNames(names)[i] {
      assert WireName(g, plain[i]) == names[i];
    }
  }

  /** A descriptor resolves, in either generation, to its response type, its
      content type, the base URL in front of its parsed pattern, `GET`, and its
      plain fields in declaration order under their own names. */
  lemma DescriptorResolves(
    g: Generation, name: string, uri: string, contentType: string, response: TypeRef,
    hidden: seq<FieldDecl>, names: seq<string>, template: Template)
    requires Parse(uri) == Ok(template)
    requires forall i :: 0 <= i < |hidden| ==> !QueryEligible(hidden[i])
    ensures Resolve(g, Descriptor(name, uri, contentType, response, hidden, names))
      == Ok(Info(response, contentType, Literal(BaseUrl) + template, "GET", SameNames(names)))
  {
    var c := Descriptor(name, uri, contentType, response, hidden, names);
    assert DeclaresResponse(c.interfaces[0]);
    assert ResponseTypeOf(c.interfaces) == Some(response);
    DescriptorSelection(g, hidden, names);
    ResolveSucceeds(g, c);
    ResolvedInfo(g, c);
  }

  /** `sendRequest` on a descriptor whose fields can all be read sends no
      body and the base URL, the formatted pattern and the query built from
      its plain fields, with its content type and `GET`. */
  lemma DescriptorSends<S, D>(
    g: Generation, cache: Cache, name: string, uri: string, contentType: string, response: TypeRef,
    hidden: seq<FieldDecl>, names: seq<string>, template: Template,
    values: Instance, args: seq<Atom>, send: Envelope -> Result<S, Error>, decode: (S, TypeRef) -> Result<D, Error>)
    requires Sound(g, cache)
    requires Parse(uri) == Ok(template)
    requires forall i :: 0 <= i < |hidden| ==> !QueryEligible(hidden[i])
    requires Instantiates(values, Descriptor(name, uri, contentType, response, hidden, names))
    requires Covers(values, SameNames(names)) && Readable(values, SameNames(names))
    ensures SendRequest(g, cache, Request(Descriptor(name, uri, contentType, response, hidden, names), values), args, send, decode).sent
      == Some(Envelope(None, Format(Literal(BaseUrl) + template, ShowAll(args)) + Assemble(Emitted(values, SameNames(names))),
                       contentType, "GET"))
  {
    var req := Request(Descriptor(name, uri, contentType, response, hidden, names), values);
    DescriptorResolves(g, name, uri, contentType, response, hidden, names, template);
    RawSendsFormattedUri(g, cache, req, args, send);
    TypedRefinesRaw(g, cache, req, args, send, decode);
  }

  /** `sendRequest(this, arg)` on a descriptor whose pattern is literal text
      and then argument 0 sends the base URL, the text, the argument and the
      query. */
  lemma OneHoleDescriptorSends<S, D>(
    g: Generation, cache: Cache, name: string, uri: string, contentType: string, response: TypeRef,
    hidden: seq<FieldDecl>, names: seq<string>, prefix: string,
    values: Instance, arg: Atom, pairs: seq<(string, string)>,
    send: Envelope -> Result<S, Error>, decode: (S, TypeRef) -> Result<D, Error>)
    requires Sound(g, cache)
    requires Parse(uri) == Ok(Literal(prefix) + [Hole(0)])
    requires forall i :: 0 <= i < |hidden| ==> !QueryEligible(hidden[i])
    requires Instantiates(values, Descriptor(name, uri, contentType, response, hidden, names))
    requires Covers(values, SameNames(names)) && Readable(values, SameNames(names))
    requires Emitted(values, SameNames(names)) == pairs
    ensures SendRequest(g, cache, Request(Descriptor(name, uri, contentType, response, hidden, names), values), [arg], send, decode).sent
      == Some(Envelope(None, BaseUrl + prefix + Show(arg) + Assemble(pairs), contentType, "GET"))
  {
    DescriptorSends(g, cache, name, uri, contentType, response, hidden, names, Literal(prefix) + [Hole(0)], values, [arg], send, decode);
    assert ShowAll([arg]) == [Show(arg)];
    FormatTwoLiteralsThenHole(BaseUrl, prefix, Show(arg));
  }

  /** An instance with a value for every hidden field and every plain field
      instantiates the descriptor. */
  lemma DescriptorInstantiated(
    values: Instance, name: string, uri: string, contentType: string, response: TypeRef,
    hidden: seq<FieldDecl>, names: seq<string>)
    requires forall i :: 0 <= i < |hidden| ==> hidden[i].name in values
    requires forall i :: 0 <= i < |names| ==> names[i] in values
    ensures Instantiates(values, Descriptor(name, uri, contentType, response, hidden, names))
  {
    var fields := hidden + PlainFields(names);
    forall i | 0 <= i < |fields| ensures fields[i].name in values {
      if i >= |hidden| {
        assert fields[i].name == names[i - |hidden|];
      }
    }
  }

  /** The query pair a field value contributes: none when it is skipped. */
  function Pair(key: string, v: Value): seq<(string, string)> {
    match ValueText(v)
    case None => []
    case Some(text) => [(key, text)]
  }

  /** A `Set<String>` field: null, or its elements in iteration order. */
  function StringSet(elements: Option<seq<string>>): Value {
    match elements
    case None => Scalar(Null)
    case Some(xs) => Coll(seq(|xs|, i requires 0 <= i < |xs| => Str(xs[i])))
  }

  /** The pairs plain fields with the given values contribute, field by field. */
  function PlainPairs(names: seq<string>, values: seq<Value>): seq<(string, string)>
    requires |names| == |values|
  {
    if |names| == 0 then [] else Pair(names[0], values[0]) + PlainPairs(names[1..], values[1..])
  }

  /** Plain fields emit one pair per field that is not skipped, keyed by the
      field name, in declaration order. */
  lemma {:induction false} EmittedPlain(inst: Instance, names: seq<string>, values: seq<Value>)
    requires |names| == |values|
    requires forall i :: 0 <= i < |names| ==> names[i] in inst && inst[names[i]] == Holds(values[i])
    ensures Covers(inst, SameNames(names)) && Readable(inst, SameNames(names))
    ensures Emitted(inst, SameNames(names)) == PlainPairs(names, values)
  {
    if |names| > 0 {
      EmittedPlain(inst, names[1..], values[1..]);
      assert SameNames(names)[1..] == SameNames(names[1..]);
    }
  }

  /** Five plain fields contribute their pairs one after another. */
  lemma PlainPairsOfFive(names: seq<string>, values: seq<Value>)
    requires |names| == 5 && |values| == 5
    ensures PlainPairs(names, values) ==
      Pair(names[0], values[0]) + Pair(names[1], values[1]) + Pair(names[2], values[2])
      + Pair(names[3], values[3]) + Pair(names[4], values[4])
  {
    var p := seq(5, i requires 0 <= i < 5 => Pair(names[i], values[i]));
    assert PlainPairs(names[5..], values[5..]) == [];
    assert PlainPairs(names[4..], values[4..]) == p[4];
    assert PlainPairs(names[3..], values[3..]) == p[3] + p[4];
    assert PlainPairs(names[2..], values[2..]) == p[2] + (p[3] + p[4]);
    assert PlainPairs(names[1..], values[1..]) == p[1] + (p[2] + (p[3] + p[4]));
    assert PlainPairs(names, values) == p[0] + (p[1] + (p[2] + (p[3] + p[4])));
    Regroup(p[0], p[1], p[2], p[3], p[4]);
  }

  /** Joining five runs does not depend on the grouping. */
  lemma Regroup<T>(a: seq<T>, b: seq<T>, c: seq<T>, d: seq<T>, e: seq<T>)
    ensures a + (b + (c + (d + e))) == a + b + c + d + e
    ensures a + ((b + c) + (d + e)) == a + b + c + d + e
  {
  }

  /** A descriptor without plain fields has no query. */
  lemma NoPlainFields(values: Instance)
    ensures Covers(values, SameNames([])) && Readable(values, SameNames([]))
    ensures Emitted(values, SameNames([])) == []
  {
  }

  /** No pairs add nothing to the URI. */
  lemma EmptyQuery(path: string)
    ensures path + Assemble([]) == path
  {
  }

  /** `Format` of two pieces of literal text and then argument 0. */
  lemma FormatTwoLiteralsThenHole(a: string, b: string, arg: string)
    ensures Format(Literal(a) + (Literal(b) + [Hole(0)]), [arg]) == a + b + arg
  {
    LiteralAppend(a, b);
    assert Literal(a) + (Literal(b) + [Hole(0)]) == Literal(a + b) + [Hole(0)];
    FormatLiteralThenHole(a + b, 0, [arg]);
  }

  /** Regrouping a template of two literal runs and two placeholders. */
  lemma TwoHoleTemplate(a: Template, b: Template)
    ensures a + [Hole(0)] + (b + [Hole(1)]) == a + [Hole(0)] + b + [Hole(1)]
  {
  }

  /** `Format` of literal text, argument 0, literal text and argument 1. */
  lemma FormatTwoHoles(base: string, a: string, b: string, args: seq<string>)
    requires |args| == 2
    ensures Format(Literal(base) + (Literal(a) + [Hole(0)] + Literal(b) + [Hole(1)]), args)
      == base + a + args[0] + b + args[1]
  {
    var first := Literal(a) + [Hole(0)];
    var second := Literal(b) + [Hole(1)];
    TwoHoleTemplate(Literal(a), Literal(b));
    FormatAppend(Literal(base), first + second, args);
    FormatAppend(first, second, args);
    FormatLiteral(base, args);
    FormatLiteralThenHole(a, 0, args);
    FormatLiteralThenHole(b, 1, args);
    Regroup(base, a, args[0], b, args[1]);
  }

  /** `sendRequest(this)` on a descriptor whose pattern is literal text sends
      the base URL, the text and the query. */
  lemma NoHoleDescriptorSends<S, D>(
    g: Generation, cache: Cache, name: string, uri: string, contentType: string, response: TypeRef,
    hidden: seq<FieldDecl>, names: seq<string>, text: string,
    values: Instance, pairs: seq<(string, string)>,
    send: Envelope -> Result<S, Error>, decode: (S, TypeRef) -> Result<D, Error>)
    requires Sound(g, cache)
    requires Parse(uri) == Ok(Literal(text))
    requires forall i :: 0 <= i < |hidden| ==> !QueryEligible(hidden[i])
    requires Instantiates(values, Descriptor(name, uri, contentType, response, hidden, names))
    requires Covers(values, SameNames(names)) && Readable(values, SameNames(names))
    requires Emitted(values, SameNames(names)) == pairs
    ensures SendRequest(g, cache, Request(Descriptor(name, uri, contentType, response, hidden, names), values), [], send, decode).sent
      == Some(Envelope(None, BaseUrl + text + Assemble(pairs), contentType, "GET"))
  {
    DescriptorSends(g, cache, name, uri, contentType, response, hidden, names, Literal(text), values, [], send, decode);
    assert ShowAll([]) == [];
    LiteralAppend(BaseUrl, text);
    FormatLiteral(BaseUrl + text, []);
  }

  /** `sendRequest(this, x, y)` on a descriptor whose pattern is literal
      text, argument 0, literal text and argument 1. */
  lemma TwoHoleDescriptorSends<S, D>(
    g: Generation, cache: Cache, name: string, uri: string, contentType: string, response: TypeRef,
    hidden: seq<FieldDecl>, names: seq<string>, a: string, b: string,
    values: Instance, x: Atom, y: Atom, pairs: seq<(string, string)>,
    send: Envelope -> Result<S, Error>, decode: (S, TypeRef) -> Result<D, Error>)
    requires Sound(g, cache)
    requires Parse(uri) == Ok(Literal(a) + [Hole(0)] + Literal(b) + [Hole(1)])
    requires forall i :: 0 <= i < |hidden| ==> !QueryEligible(hidden[i])
    requires Instantiates(values, Descriptor(name, uri, contentType, response, hidden, names))
    requires Covers(values, SameNames(names)) && Readable(values, SameNames(names))
    requires Emitted(values, SameNames(names)) == pairs
    ensures SendRequest(g, cache, Request(Descriptor(name, uri, contentType, response, hidden, names), values), [x, y], send, decode).sent
      == Some(Envelope(None, BaseUrl + a + Show(x) + b + Show(y) + Assemble(pairs), contentType, "GET"))
  {
    var template := Literal(a) + [Hole(0)] + Literal(b) + [Hole(1)];
    DescriptorSends(g, cache, name, uri, contentType, response, hidden, names, template, values, [x, y], send, decode);
    FormatTwoHoles(BaseUrl, a, b, ShowAll([x, y]));
  }

  // ---------------------------------------------------------------------------
  // VersionResourceList: GET resources/for/{0}

  const VersionResourceListType: TypeRef := TypeRef("dev.derklaro.spiget.model.VersionResourceList", [])
  const VersionResourceListPattern: string := "resources/for/{0}"
  const VersionResourceListTemplate: Template := Literal("resources/for/") + [Hole(0)]
  const VersionResourceListHidden: seq<FieldDecl> := [ClientField, ExcludedField("version")]
  const VersionResourceListNames: seq<string> := ["method", "size", "page", "sort", "fields"]

  function VersionResourceListClass(contentType: string): ClassDecl {
    Descriptor(
      "dev.derklaro.spiget.request.resource.VersionResourceList", VersionResourceListPattern, contentType,
      VersionResourceListType, VersionResourceListHidden, VersionResourceListNames)
  }

  /** The field values of a `VersionResourceList`. `size` and `page` are
      primitive ints and cannot be null; `sort` is a `Sort` value or null. */
  function VersionResourceListValues(
    version: Atom, methodName: Atom, size: int, page: int, sort: Atom, fields: Option<seq<string>>): Instance
  {
    map[
      "client" := ClientSlot,
      "version" := Holds(Scalar(version)),
      "method" := Holds(Scalar(methodName)),
      "size" := Holds(Scalar(Int(size))),
      "page" := Holds(Scalar(Int(page))),
      "sort" := Holds(Scalar(sort)),
      "fields" := Holds(StringSet(fields))]
  }

  /** `exec()`: `sendRequest(this, this.version)`. */
  function VersionResourceListExec<S, D>(
    g: Generation, cache: Cache, contentType: string,
    version: Atom, methodName: Atom, size: int, page: int, sort: Atom, fields: Option<seq<string>>,
    send: Envelope -> Result<S, Error>, decode: (S, TypeRef) -> Result<D, Error>): (r: Run<D>)
    requires Sound(g, cache)
    ensures Sound(g, r.cache)
    ensures r.sent.Some? ==> r.sent.value.body.None?
  {
    var req := Request(VersionResourceListClass(contentType), VersionResourceListValues(version, methodName, size, page, sort, fields));
    SendRequest(g, cache, req, [version], send, decode)
  }

  /** The pattern parses to the literal path followed by argument 0. */
  lemma VersionResourceListPatternParses()
    ensures Parse(VersionResourceListPattern) == Ok(VersionResourceListTemplate)
  {
    assert NatToString(0) == "0";
    assert VersionResourceListPattern == "resources/for/" + PieceText(Hole(0));
    ParseLiteralThenLastHole("resources/for/", 0);
  }

  /** `client` is transient and `version` is excluded; the query fields are
      method, size, page, sort and fields, in that order. */
  lemma VersionResourceListResolves(g: Generation, contentType: string)
    ensures Resolve(g, VersionResourceListClass(contentType)) == Ok(Info(
      VersionResourceListType, contentType, Literal(BaseUrl) + VersionResourceListTemplate, "GET",
      SameNames(VersionResourceListNames)))
  {
    VersionResourceListPatternParses();
    DescriptorResolves(
      g, "dev.derklaro.spiget.request.resource.VersionResourceList", VersionResourceListPattern, contentType,
      VersionResourceListType, VersionResourceListHidden, VersionResourceListNames, VersionResourceListTemplate);
  }

  /** The query of a `VersionResourceList`: `method` and `sort` unless null,
      `size` and `page` always (even when 0), `fields` unless null or empty,
      as one comma-joined value. */
  lemma VersionResourceListEmits(
    version: Atom, methodName: Atom, size: int, page: int, sort: Atom, fields: Option<seq<string>>)
    ensures var inst := VersionResourceListValues(version, methodName, size, page, sort, fields);
      var query := SameNames(VersionResourceListNames);
      && Covers(inst, query) && Readable(inst, query)
      && Emitted(inst, query) ==
           Pair("method", Scalar(methodName))
           + [("size", IntToString(size))] + [("page", IntToString(page))]
           + Pair("sort", Scalar(sort))
           + Pair("fields", StringSet(fields))
  {
    var inst := VersionResourceListValues(version, methodName, size, page, sort, fields);
    var names := VersionResourceListNames;
    var values := [Scalar(methodName), Scalar(Int(size)), Scalar(Int(page)), Scalar(sort), StringSet(fields)];
    EmittedPlain(inst, names, values);
    PlainPairsOfFive(names, values);
    assert Pair("size", Scalar(Int(size))) == [("size", IntToString(size))];
    assert Pair("page", Scalar(Int(page))) == [("page", IntToString(page))];
  }

  /** `client` is transient and `version` is excluded. */
  lemma VersionResourceListHiddenSkipped()
    ensures forall i :: 0 <= i < |VersionResourceListHidden| ==> !QueryEligible(VersionResourceListHidden[i])
  {
  }

  /** Every field of a `VersionResourceList` has a value. */
  lemma VersionResourceListInstantiated(
    contentType: string, version: Atom, methodName: Atom, size: int, page: int, sort: Atom, fields: Option<seq<string>>)
    ensures Instantiates(VersionResourceListValues(version, methodName, size, page, sort, fields), VersionResourceListClass(contentType))
  {
    var values := VersionResourceListValues(version, methodName, size, page, sort, fields);
    assert "client" in values && "version" in values;
    assert "method" in values && "size" in values && "page" in values && "sort" in values && "fields" in values;
    DescriptorInstantiated(
      values, "dev.derklaro.spiget.request.resource.VersionResourceList", VersionResourceListPattern, contentType,
      VersionResourceListType, VersionResourceListHidden, VersionResourceListNames);
  }

  /** Whatever the field values, `exec` sends no body and the URI
      `BASE_URL` + "resources/for/" + the version + the query above, with
      the annotation's content type and `GET`. */
  lemma VersionResourceListUri<S, D>(
    g: Generation, cache: Cache, contentType: string,
    version: Atom, methodName: Atom, size: int, page: int, sort: Atom, fields: Option<seq<string>>,
    send: Envelope -> Result<S, Error>, decode: (S, TypeRef) -> Result<D, Error>)
    requires Sound(g, cache)
    ensures var pairs :=
        Pair("method", Scalar(methodName))
        + [("size", IntToString(size))] + [("page", IntToString(page))]
        + Pair("sort", Scalar(sort))
        + Pair("fields", StringSet(fields));
      VersionResourceListExec(g, cache, contentType, version, methodName, size, page, sort, fields, send, decode).sent
        == Some(Envelope(None, BaseUrl + "resources/for/" + Show(version) + Assemble(pairs), contentType, "GET"))
  {
    var values := VersionResourceListValues(version, methodName, size, page, sort, fields);
    VersionResourceListPatternParses();
    VersionResourceListHiddenSkipped();
    VersionResourceListEmits(version, methodName, size, page, sort, fields);
    VersionResourceListInstantiated(contentType, version, methodName, size, page, sort, fields);
    OneHoleDescriptorSends(
      g, cache, "dev.derklaro.spiget.request.resource.VersionResourceList", VersionResourceListPattern, contentType,
      VersionResourceListType, VersionResourceListHidden, VersionResourceListNames, "resources/for/",
      values, version, Emitted(values, SameNames(VersionResourceListNames)), send, decode);
  }

  /** The query pairs of the `testResourceForVersions` request. */
  lemma VersionResourceListExamplePairs()
    ensures Pair("method", Scalar(Str("all")))
        + [("size", IntToString(5))] + [("page", IntToString(2))]
        + Pair("sort", Scalar(Null))
        + Pair("fields", StringSet(None))
      == [("method", "all"), ("size", "5"), ("page", "2")]
  {
    assert Pair("method", Scalar(Str("all"))) == [("method", "all")];
    assert IntToString(5) == "5" && IntToString(2) == "2";
    assert Pair("sort", Scalar(Null)) == [] && Pair("fields", StringSet(None)) == [];
  }

  /** The query string of the `testResourceForVersions` request. */
  lemma VersionResourceListExampleQuery()
    ensures Assemble([("method", "all"), ("size", "5"), ("page", "2")]) == "?method=all&size=5&page=2"
  {
    var pairs := [("method", "all"), ("size", "5"), ("page", "2")];
    assert Continuation(pairs[3..]) == "";
    assert Continuation(pairs[2..]) == Segment("&", "page", "2");
    assert Continuation(pairs[1..]) == Segment("&", "size", "5") + Segment("&", "page", "2");
    assert Assemble(pairs) == Segment("?", "method", "all") + Segment("&", "size", "5") + Segment("&", "page", "2");
  }

  /** The request of the `testResourceForVersions` test: version "1.16",
      method "all", size 5, page 2, no sort and no fields. */
  lemma VersionResourceListExample<S, D>(
    g: Generation, cache: Cache, contentType: string,
    send: Envelope -> Result<S, Error>, decode: (S, TypeRef) -> Result<D, Error>)
    requires Sound(g, cache)
    ensures VersionResourceListExec(g, cache, contentType, Str("1.16"), Str("all"), 5, 2, Null, None, send, decode).sent
      == Some(Envelope(None, BaseUrl + "resources/for/1.16?method=all&size=5&page=2", contentType, "GET"))
  {
    VersionResourceListUri(g, cache, contentType, Str("1.16"), Str("all"), 5, 2, Null, None, send, decode);
    VersionResourceListExamplePairs();
    VersionResourceListExampleQuery();
    VersionResourceListExampleText();
  }

  lemma VersionResourceListExampleText()
    ensures BaseUrl + "resources/for/" + "1.16" + "?method=all&size=5&page=2"
      == BaseUrl + "resources/for/1.16?method=all&size=5&page=2"
  {
    var joined := "resources/for/" + "1.16" + "?method=all&size=5&page=2";
    var whole := "resources/for/1.16?method=all&size=5&page=2";
    assert |joined| == |whole|;
    forall i | 0 <= i < |whole| ensures joined[i] == whole[i] {
    }
  }

  // ---------------------------------------------------------------------------
  // ResourceVersion: GET resources/{0}/versions/{1}

  const ResourceVersionType: TypeRef := TypeRef("dev.derklaro.spiget.model.Version", [])
  const ResourceVersionPattern: string := "resources/{0}/versions/{1}"
  const ResourceVersionTemplate: Template := Literal("resources/") + [Hole(0)] + Literal("/versions/") + [Hole(1)]
  const ResourceVersionHidden: seq<FieldDecl> :=
    [ClientField, ExcludedField("resourceId"), ExcludedField("versionId")]

  function ResourceVersionClass(contentType: string): ClassDecl {
    Descriptor(
      "dev.derklaro.spiget.request.resource.ResourceVersion", ResourceVersionPattern, contentType,
      ResourceVersionType, ResourceVersionHidden, [])
  }

  /** The field values of a `ResourceVersion`: two primitive ints. */
  function ResourceVersionValues(resourceId: int, versionId: int): Instance {
    map["client" := ClientSlot, "resourceId" := Holds(Scalar(Int(resourceId))), "versionId" := Holds(Scalar(Int(versionId)))]
  }

  /** `exec()`: `sendRequest(this, this.resourceId, this.versionId)`. */
  function ResourceVersionExec<S, D>(
    g: Generation, cache: Cache, contentType: string, resourceId: int, versionId: int,
    send: Envelope -> Result<S, Error>, decode: (S, TypeRef) -> Result<D, Error>): (r: Run<D>)
    requires Sound(g, cache)
    ensures Sound(g, r.cache)
    ensures r.sent.Some? ==> r.sent.value.body.None?
  {
    var req := Request(ResourceVersionClass(contentType), ResourceVersionValues(resourceId, versionId));
    SendRequest(g, cache, req, [Int(resourceId), Int(versionId)], send, decode)
  }

  /** The pattern parses to two literal runs, each followed by a placeholder. */
  lemma ResourceVersionPatternParses()
    ensures Parse(ResourceVersionPattern) == Ok(ResourceVersionTemplate)
  {
    var tail := "/versions/" + PieceText(Hole(1));
    ParseLiteralThenLastHole("/versions/", 1);
    ParseLiteralThenHole("resources/", 0, tail);
    ResourceVersionPatternText();
    TwoHoleTemplate(Literal("resources/"), Literal("/versions/"));
  }

  /** The pattern is its two literal runs with the placeholder texts between. */
  lemma ResourceVersionPatternText()
    ensures ResourceVersionPattern == "resources/" + PieceText(Hole(0)) + ("/versions/" + PieceText(Hole(1)))
  {
    assert NatToString(0) == "0";
    assert PieceText(Hole(0)) == "{0}";
    assert NatToString(1) == "1";
    assert PieceText(Hole(1)) == "{1}";
    var joined := "resources/" + "{0}" + ("/versions/" + "{1}");
    assert |joined| == |ResourceVersionPattern|;
    forall i | 0 <= i < |joined| ensures joined[i] == ResourceVersionPattern[i] {
    }
  }


  /** All three fields are hidden, so a `ResourceVersion` has no query. */
  lemma ResourceVersionHiddenSkipped()
    ensures forall i :: 0 <= i < |ResourceVersionHidden| ==> !QueryEligible(ResourceVersionHidden[i])
  {
  }

  /** A `ResourceVersion` resolves to a `Version` response, the base URL in
      front of its two-placeholder pattern, `GET` and no query fields. */
  lemma ResourceVersionResolves(g: Generation, contentType: string)
    ensures Resolve(g, ResourceVersionClass(contentType)) == Ok(Info(
      ResourceVersionType, contentType, Literal(BaseUrl) + ResourceVersionTemplate, "GET", []))
  {
    ResourceVersionPatternParses();
    ResourceVersionHiddenSkipped();
    DescriptorResolves(
      g, "dev.derklaro.spiget.request.resource.ResourceVersion", ResourceVersionPattern, contentType,
      ResourceVersionType, ResourceVersionHidden, [], ResourceVersionTemplate);
    assert SameNames([]) == [];
  }

  /** Whatever the ids, `exec` sends no body and the URI `BASE_URL` +
      "resources/" + the resource id + "/versions/" + the version id, in
      decimal and without a query. */
  lemma ResourceVersionUri<S, D>(
    g: Generation, cache: Cache, contentType: string, resourceId: int, versionId: int,
    send: Envelope -> Result<S, Error>, decode: (S, TypeRef) -> Result<D, Error>)
    requires Sound(g, cache)
    ensures ResourceVersionExec(g, cache, contentType, resourceId, versionId, send, decode).sent
      == Some(Envelope(None, BaseUrl + "resources/" + IntToString(resourceId) + "/versions/" + IntToString(versionId),
                       contentType, "GET"))
  {
    var values := ResourceVersionValues(resourceId, versionId);
    ResourceVersionPatternParses();
    ResourceVersionHiddenSkipped();
    ResourceVersionInstantiated(contentType, resourceId, versionId);
    NoPlainFields(values);
    TwoHoleDescriptorSends(
      g, cache, "dev.derklaro.spiget.request.resource.ResourceVersion", ResourceVersionPattern, contentType,
      ResourceVersionType, ResourceVersionHidden, [], "resources/", "/versions/",
      values, Int(resourceId), Int(versionId), [], send, decode);
    EmptyQuery(BaseUrl + "resources/" + Show(Int(resourceId)) + "/versions/" + Show(Int(versionId)));
  }

  /** Every field of a `ResourceVersion` has a value. */
  lemma ResourceVersionInstantiated(contentType: string, resourceId: int, versionId: int)
    ensures Instantiates(ResourceVersionValues(resourceId, versionId), ResourceVersionClass(contentType))
  {
    var values := ResourceVersionValues(resourceId, versionId);
    assert "client" in values && "resourceId" in values && "versionId" in values;
    DescriptorInstantiated(
      values, "dev.derklaro.spiget.request.resource.ResourceVersion", ResourceVersionPattern, contentType,
      ResourceVersionType, ResourceVersionHidden, []);
  }

  /** The decimal texts of the ids the `testResourceVersionDetails` test uses. */
  lemma ExampleIdsText()
    ensures IntToString(19254) == "19254" && IntToString(429596) == "429596"
  {
    assert NatToString(1) == "1" && NatToString(4) == "4";
    assert DigitChar(2) == '2' && DigitChar(4) == '4' && DigitChar(5) == '5';
    assert DigitChar(6) == '6' && DigitChar(9) == '9';
    NatToStringStep(19, "1");
    NatToStringStep(192, "19");
    NatToStringStep(1925, "192");
    NatToStringStep(19254, "1925");
    NatToStringStep(42, "4");
    NatToStringStep(429, "42");
    NatToStringStep(4295, "429");
    NatToStringStep(42959, "4295");
    NatToStringStep(429596, "42959");
  }

  /** The request of the `testResourceVersionDetails` test. */
  lemma ResourceVersionExample<S, D>(
    g: Generation, cache: Cache, contentType: string,
    send: Envelope -> Result<S, Error>, decode: (S, TypeRef) -> Result<D, Error>)
    requires Sound(g, cache)
    ensures ResourceVersionExec(g, cache, contentType, 19254, 429596, send, decode).sent
      == Some(Envelope(None, BaseUrl + "resources/19254/versions/429596", contentType, "GET"))
  {
    ResourceVersionUri(g, cache, contentType, 19254, 429596, send, decode);
    ExampleIdsText();
    ResourceVersionExampleText();
  }

  lemma ResourceVersionExampleText()
    ensures BaseUrl + "resources/" + "19254" + "/versions/" + "429596" == BaseUrl + "resources/19254/versions/429596"
  {
    var joined := "resources/" + "19254" + "/versions/" + "429596";
    var whole := "resources/19254/versions/429596";
    assert |joined| == |whole|;
    forall i | 0 <= i < |whole| ensures joined[i] == whole[i] {
    }
  }

  // ---------------------------------------------------------------------------
  // WebhookEvents: GET webhook/events

  const WebhookEventsType: TypeRef := TypeRef("java.util.Set", [TypeRef("java.lang.String", [])])
  const WebhookEventsPattern: string := "webhook/events"
  const WebhookEventsHidden: seq<FieldDecl> := [ClientField]

  function WebhookEventsClass(contentType: string): ClassDecl {
    Descriptor(
      "dev.derklaro.spiget.request.webhook.WebhookEvents", WebhookEventsPattern, contentType,
      WebhookEventsType, WebhookEventsHidden, [])
  }

  /** The pattern has no placeholders: it parses to its own text. */
  lemma WebhookEventsPatternParses()
    ensures Parse(WebhookEventsPattern) == Ok(Literal(WebhookEventsPattern))
  {
    assert LiteralText(WebhookEventsPattern) by {
      forall i | 0 <= i < |WebhookEventsPattern| ensures LiteralChar(WebhookEventsPattern[i]) {
      }
    }
  }

  /** The only field, `client`, is transient. */
  lemma WebhookEventsHiddenSkipped()
    ensures forall i :: 0 <= i < |WebhookEventsHidden| ==> !QueryEligible(WebhookEventsHidden[i])
  {
  }

  /** A `WebhookEvents` resolves to a `Set<String>` response, the base URL
      and "webhook/events" as a template without placeholders, `GET` and no
      query fields. */
  lemma WebhookEventsResolves(g: Generation, contentType: string)
    ensures Resolve(g, WebhookEventsClass(contentType)) == Ok(Info(
      WebhookEventsType, contentType, Literal(BaseUrl) + Literal(WebhookEventsPattern), "GET", []))
  {
    WebhookEventsPatternParses();
    WebhookEventsHiddenSkipped();
    DescriptorResolves(
      g, "dev.derklaro.spiget.request.webhook.WebhookEvents", WebhookEventsPattern, contentType,
      WebhookEventsType, WebhookEventsHidden, [], Literal(WebhookEventsPattern));
    assert SameNames([]) == [];
  }

  /** `exec()`: `sendRequest(this)`. */
  function WebhookEventsExec<S, D>(
    g: Generation, cache: Cache, contentType: string,
    send: Envelope -> Result<S, Error>, decode: (S, TypeRef) -> Result<D, Error>): (r: Run<D>)
    requires Sound(g, cache)
    ensures Sound(g, r.cache)
    ensures r.sent.Some? ==> r.sent.value.body.None?
  {
    SendRequest(g, cache, Request(WebhookEventsClass(contentType), map["client" := ClientSlot]), [], send, decode)
  }

  /** `exec` always sends the fixed URI `BASE_URL` + "webhook/events", with
      no body and no query. */
  lemma WebhookEventsUri<S, D>(
    g: Generation, cache: Cache, contentType: string,
    send: Envelope -> Result<S, Error>, decode: (S, TypeRef) -> Result<D, Error>)
    requires Sound(g, cache)
    ensures WebhookEventsExec(g, cache, contentType, send, decode).sent
      == Some(Envelope(None, BaseUrl + "webhook/events", contentType, "GET"))
  {
    var values := map["client" := ClientSlot];
    WebhookEventsPatternParses();
    WebhookEventsHiddenSkipped();
    DescriptorInstantiated(
      values, "dev.derklaro.spiget.request.webhook.WebhookEvents", WebhookEventsPattern, contentType,
      WebhookEventsType, WebhookEventsHidden, []);
    NoPlainFields(values);
    NoHoleDescriptorSends(
      g, cache, "dev.derklaro.spiget.request.webhook.WebhookEvents", WebhookEventsPattern, contentType,
      WebhookEventsType, WebhookEventsHidden, [], "webhook/events", values, [], send, decode);
    EmptyQuery(BaseUrl + "webhook/events");
  }
}

=== FILE: resolution.dfy ===
/** `getOrCreateInfo` without its cache: deriving the `RequestInfo` of a request
    class from its `@RequestData` annotation, its generic interfaces and its
    declared fields. Reflection is replaced by an explicit class description. */
module Resolution {
  import opened Wrappers
  import opened Seqs
  import opened MessageFormat
  import opened Model
  import opened RequestInfo

  /** Prefix of every request URI. */
  const BaseUrl: string := "https://api.spiget.org/v2/"

  /** The raw type of the request interface `Request<T>`. */
  const RequestInterface: string := "dev.derklaro.spiget.Request"

  /** A generic interface of a class: a plain class reference, or a
      parameterized type with its raw type and actual type arguments. */
  datatype Iface = RawInterface(name: string) | GenericInterface(raw: string, args: seq<TypeRef>)

  /** A declared field: its modifiers, whether it carries `@ExcludeQuery`, its
      `@SerializedName` value if any, and whether a getter can be obtained for it. */
  datatype FieldDecl = FieldDecl(
    name: string,
    isStatic: bool,
    isTransient: bool,
    excludeQuery: bool,
    serializedName: Option<string>,
    accessible: bool)

  /** The `@RequestData` annotation. */
  datatype RequestData = RequestData(uri: string, httpMethod: string, contentType: string)

  /** What reflection reveals about a request class. */
  datatype ClassDecl = ClassDecl(
    name: string,
    requestData: Option<RequestData>,
    interfaces: seq<Iface>,
    fields: seq<FieldDecl>)

  /** `Request<T>` with exactly one type argument. */
  predicate DeclaresResponse(i: Iface) {
    i.GenericInterface? && i.raw == RequestInterface && |i.args| == 1
  }

  /** The type argument of the first generic interface that is `Request<T>`. */
  function ResponseTypeOf(ifaces: seq<Iface>): (r: Option<TypeRef>)
    ensures r.None? <==> forall k :: 0 <= k < |ifaces| ==> !DeclaresResponse(ifaces[k])
    ensures r.Some? ==> exists k :: (
      && 0 <= k < |ifaces| && DeclaresResponse(ifaces[k])
      && r.value == ifaces[k].args[0]
      && forall j :: 0 <= j < k ==> !DeclaresResponse(ifaces[j]))
  {
    match FirstIndex(ifaces, DeclaresResponse, 0)
    case None => None
    case Some(k) => Some(ifaces[k].args[0])
  }

  /** Neither static, nor transient, nor annotated `@ExcludeQuery`. */
  predicate QueryEligible(f: FieldDecl) {
    !f.isStatic && !f.isTransient && !f.excludeQuery
  }

  /** The query key of a field: the current client honours `@SerializedName`,
      the legacy client always uses the Java field name. */
  function WireName(g: Generation, f: FieldDecl): (r: string)
    ensures r == f.name || Some(r) == f.serializedName
    ensures g == Legacy || f.serializedName.None? ==> r == f.name
    ensures g == Current && f.serializedName.Some? ==> r == f.serializedName.value
  {
    match g
    case Current => f.serializedName.GetOr(f.name)
    case Legacy => f.name
  }

  /** The two generations key a field alike exactly when it has no
      `@SerializedName`, or one that repeats the field name. */
  lemma GenerationsShareKey(f: FieldDecl)
    ensures WireName(Current, f) == WireName(Legacy, f) <==> f.serializedName.None? || f.serializedName.value == f.name
  {
  }

  /** The exception raised when no getter can be obtained for a field: the
      current client wraps it, the legacy one lets `setAccessible`'s escape. */
  function SetupFailure(g: Generation, f: FieldDecl): (r: Error)
    ensures r == FieldInaccessible(f.name) <==> g == Legacy
    ensures r == FieldSetupFailed(f.name) <==> g == Current
  {
    match g
    case Current => FieldSetupFailed(f.name)
    case Legacy => FieldInaccessible(f.name)
  }

  /** The errors the field loop can raise: one per eligible field without a getter. */
  function SetupFailures(g: Generation, fields: seq<FieldDecl>): set<Error> {
    set i | 0 <= i < |fields| && SetupFails(fields[i]) :: SetupFailure(g, fields[i])
  }

  /** The declared-fields loop of `getOrCreateInfo`. */
  function CollectQueryFields(g: Generation, fields: seq<FieldDecl>): (r: Result<seq<QueryField>, Error>)
    ensures r.Ok? ==> |r.value| <= |fields|
    ensures r.Err? ==> !AllAccessible(fields) && r.error in SetupFailures(g, fields)
  {
    if |fields| == 0 then Ok([])
    else
      assert forall i :: 0 <= i < |fields| - 1 ==> fields[1..][i] == fields[i + 1];
      assert SetupFailures(g, fields[1..]) <= SetupFailures(g, fields) by {
        forall e | e in SetupFailures(g, fields[1..]) ensures e in SetupFailures(g, fields) {
          var i :| 0 <= i < |fields| - 1 && SetupFails(fields[1..][i]) && e == SetupFailure(g, fields[1..][i]);
          assert SetupFails(fields[i + 1]) && e == SetupFailure(g, fields[i + 1]);
        }
      }
      if !QueryEligible(fields[0]) then CollectQueryFields(g, fields[1..])
      else if !fields[0].accessible then
        assert SetupFails(fields[0]);
        Err(SetupFailure(g, fields[0]))
      else
        var rest :- CollectQueryFields(g, fields[1..]);
        Ok([QueryField(WireName(g, fields[0]), fields[0].name)] + rest)
  }

  // ---------------------------------------------------------------------------
  // Reference description of the field selection

  /** The eligible fields, in declaration order. */
  function Eligible(fields: seq<FieldDecl>): (r: seq<FieldDecl>)
    ensures forall f :: f in r <==> f in fields && QueryEligible(f)
  {
    if |fields| == 0 then []
    else if QueryEligible(fields[0]) then [fields[0]] + Eligible(fields[1..])
    else Eligible(fields[1..])
  }

  /** Field selection works field by field, so a class's fields can be
      selected in parts. */
  lemma {:induction false} EligibleAppend(a: seq<FieldDecl>, b: seq<FieldDecl>)
    ensures Eligible(a + b) == Eligible(a) + Eligible(b)
    decreases |a|
  {
    if |a| == 0 {
      assert a + b == b;
    } else {
      assert (a + b)[0] == a[0];
      assert (a + b)[1..] == a[1..] + b;
      EligibleAppend(a[1..], b);
    }
  }

  /** An eligible field for which no getter can be obtained. */
  predicate SetupFails(f: FieldDecl) {
    QueryEligible(f) && !f.accessible
  }

  /** Every eligible field can be read. */
  predicate AllAccessible(fields: seq<FieldDecl>) {
    forall i :: 0 <= i < |fields| ==> !SetupFails(fields[i])
  }

  /** The query fields for a list of selected fields: the wire name paired with
      the field that carries the value. */
  function KeyedFields(g: Generation, selected: seq<FieldDecl>): (r: seq<QueryField>)
    ensures |r| == |selected|
    ensures forall i :: 0 <= i < |selected| ==> r[i] == QueryField(WireName(g, selected[i]), selected[i].name)
  {
    if |selected| == 0 then [] else [QueryField(WireName(g, selected[0]), selected[0].name)] + KeyedFields(g, selected[1..])
  }

  /** The loop keeps exactly the eligible fields, in order, keyed by their wire
      names; it fails on the first eligible field it cannot make a getter for. */
  lemma {:induction false} CollectMatchesReference(g: Generation, fields: seq<FieldDecl>)
    ensures AllAccessible(fields) ==> CollectQueryFields(g, fields) == Ok(KeyedFields(g, Eligible(fields)))
    ensures !AllAccessible(fields) ==>
      var k := FirstIndex(fields, SetupFails, 0).value;
      CollectQueryFields(g, fields) == Err(SetupFailure(g, fields[k]))
  {
    if |fields| > 0 {
      var tail := fields[1..];
      CollectMatchesReference(g, tail);
      assert forall i :: 0 <= i < |tail| ==> tail[i] == fields[i + 1];
      if !AllAccessible(fields) && !SetupFails(fields[0]) {
        var k := FirstIndex(fields, SetupFails, 0).value;
        var k' := FirstIndex(tail, SetupFails, 0).value;
        assert SetupFails(fields[k' + 1]);
        assert k == k' + 1;
      }
    }
  }

  /** The loop fails exactly when some eligible field has no getter. */
  lemma {:induction false} CollectSucceeds(g: Generation, fields: seq<FieldDecl>)
    ensures CollectQueryFields(g, fields).Ok? <==> AllAccessible(fields)
  {
    if |fields| > 0 {
      CollectSucceeds(g, fields[1..]);
      assert forall i :: 0 <= i < |fields| - 1 ==> fields[1..][i] == fields[i + 1];
    }
  }

  /** The instance has a value for every declared field. */
  predicate Instantiates(inst: Instance, c: ClassDecl) {
    forall i :: 0 <= i < |c.fields| ==> c.fields[i].name in inst
  }

  /** `getOrCreateInfo`'s derivation step (the function given to
      `computeIfAbsent`): annotation, then response type, then the query
      fields, then the URI pattern. */
  function Resolve(g: Generation, c: ClassDecl): (r: Result<Info, Error>)
    ensures c.requestData.None? ==> r == Err(NoRequestAnnotation)
    ensures c.requestData.Some? && ResponseTypeOf(c.interfaces).None? ==> r == Err(MissingTypeParameter)
  {
    match c.requestData
    case None => Err(NoRequestAnnotation)
    case Some(data) =>
      match ResponseTypeOf(c.interfaces)
      case None => Err(MissingTypeParameter)
      case Some(responseType) =>
        var queryFields :- CollectQueryFields(g, c.fields);
        match Parse(BaseUrl + data.uri)
        case Err(f) => Err(BadPattern(f))
        case Ok(template) => Ok(Info(responseType, data.contentType, template, data.httpMethod, queryFields))
  }

  /** The base URL is plain literal text in front of the annotation's URI
      pattern. */
  lemma ParseAfterBaseUrl(uri: string)
    ensures Parse(uri).Ok? ==> Parse(BaseUrl + uri) == Ok(Literal(BaseUrl) + Parse(uri).value)
    ensures Parse(uri).Err? ==> Parse(BaseUrl + uri) == Err(Parse(uri).error)
  {
    assert LiteralText(BaseUrl);
    ParseLiteralPrefix(BaseUrl, uri);
  }

  /** `MessageFormat` accepts the full pattern exactly when it accepts the
      annotation's part of it. */
  lemma BaseUrlKeepsAcceptance(uri: string)
    ensures Parse(BaseUrl + uri).Ok? <==> Parse(uri).Ok?
  {
    ParseAfterBaseUrl(uri);
  }

  /** An accepted pattern is parsed behind the base URL's literal text. */
  lemma BaseUrlTemplate(uri: string)
    requires Parse(uri).Ok?
    ensures Parse(BaseUrl + uri) == Ok(Literal(BaseUrl) + Parse(uri).value)
  {
    ParseAfterBaseUrl(uri);
  }

  /** Resolution succeeds exactly when the annotation is present, a
      `Request<T>` interface names the response type, every eligible field has
      a getter and `MessageFormat` accepts the URI pattern. */
  lemma ResolveSucceeds(g: Generation, c: ClassDecl)
    ensures Resolve(g, c).Ok? <==>
      && c.requestData.Some?
      && ResponseTypeOf(c.interfaces).Some?
      && AllAccessible(c.fields)
      && Parse(c.requestData.value.uri).Ok?
  {
    match c.requestData
    case None =>
    case Some(data) =>
      match ResponseTypeOf(c.interfaces)
      case None =>
      case Some(responseType) =>
        CollectSucceeds(g, c.fields);
        BaseUrlKeepsAcceptance(data.uri);
  }

  /** What a successful resolution yields: the annotation's content type and
      method, the response type of `Request<T>`, the base URL followed by the
      annotation's URI pattern, and the eligible fields in declaration order
      under their wire names. */
  lemma ResolvedInfo(g: Generation, c: ClassDecl)
    requires Resolve(g, c).Ok?
    ensures c.requestData.Some? && Parse(c.requestData.value.uri).Ok?
    ensures var info := Resolve(g, c).value;
      && Some(info.responseType) == ResponseTypeOf(c.interfaces)
      && info.contentType == c.requestData.value.contentType
      && info.requestMethod == c.requestData.value.httpMethod
      && info.template == Literal(BaseUrl) + Parse(c.requestData.value.uri).value
      && info.queryFields == KeyedFields(g, Eligible(c.fields))
  {
    var data := c.requestData.value;
    CollectSucceeds(g, c.fields);
    CollectMatchesReference(g, c.fields);
    assert CollectQueryFields(g, c.fields) == Ok(KeyedFields(g, Eligible(c.fields)));
    BaseUrlKeepsAcceptance(data.uri);
    BaseUrlTemplate(data.uri);
  }

  /** The later failures of resolution: the first eligible field without a
      getter, then a pattern `MessageFormat` rejects. */
  lemma ResolveFails(g: Generation, c: ClassDecl)
    ensures c.requestData.Some? && ResponseTypeOf(c.interfaces).Some? && !AllAccessible(c.fields) ==>
      Resolve(g, c) == Err(SetupFailure(g, c.fields[FirstIndex(c.fields, SetupFails, 0).value]))
    ensures (c.requestData.Some? && ResponseTypeOf(c.interfaces).Some? && AllAccessible(c.fields)
      && Parse(c.requestData.value.uri).Err?) ==>
      Resolve(g, c) == Err(BadPattern(Parse(c.requestData.value.uri).error))
  {
    match c.requestData
    case None =>
    case Some(data) =>
      match ResponseTypeOf(c.interfaces)
      case None =>
      case Some(responseType) =>
        CollectMatchesReference(g, c.fields);
        ParseAfterBaseUrl(data.uri);
  }

  /** The selected fields of a class whose instance has every declared field
      are all present in that instance. */
  lemma {:induction false} SelectedFieldsPresent(g: Generation, fields: seq<FieldDecl>, inst: Instance)
    requires forall i :: 0 <= i < |fields| ==> fields[i].name in inst
    ensures Covers(inst, KeyedFields(g, Eligible(fields)))
  {
    if |fields| > 0 {
      SelectedFieldsPresent(g, fields[1..], inst);
      var rest := KeyedFields(g, Eligible(fields[1..]));
      if QueryEligible(fields[0]) {
        assert KeyedFields(g, Eligible(fields)) == [QueryField(WireName(g, fields[0]), fields[0].name)] + rest;
      }
    }
  }

  /** Every query field of a resolved class names one of its declared fields,
      so any instance of the class can supply its value. */
  lemma ResolvedFieldsAreDeclared(g: Generation, c: ClassDecl, inst: Instance)
    requires Resolve(g, c).Ok? && Instantiates(inst, c)
    ensures Covers(inst, Resolve(g, c).value.queryFields)
  {
    ResolvedInfo(g, c);
    SelectedFieldsPresent(g, c.fields, inst);
  }

  /** A URI built from a template that begins with literal text begins with
      that text. */
  lemma LiteralPrefixSurvives(info: Info, prefix: string, rest: Template, inst: Instance, args: seq<Atom>, g: Generation)
    requires info.template == Literal(prefix) + rest
    requires Covers(inst, info.queryFields)
    ensures var r := FormatUri(info, inst, args, g);
      r.Ok? ==> prefix <= r.value
  {
    var r := FormatUri(info, inst, args, g);
    if r.Ok? {
      var path := Format(info.template, ShowAll(args));
      FormattedPrefix(prefix, rest, ShowAll(args));
      PrefixExtends(prefix, path, Assemble(Emitted(inst, info.queryFields)));
    }
  }

  /** Formatting a template that begins with literal text begins with that text. */
  lemma FormattedPrefix(prefix: string, rest: Template, strings: seq<string>)
    ensures prefix <= Format(Literal(prefix) + rest, strings)
  {
    FormatAppend(Literal(prefix), rest, strings);
    FormatLiteral(prefix, strings);
    PrefixExtends(prefix, prefix, Format(rest, strings));
  }

  lemma PrefixExtends(a: string, b: string, c: string)
    requires a <= b
    ensures a <= b + c
  {
    assert (b + c)[..|b|] == b;
  }

  /** Every URI built from a resolved class starts with the base URL, whatever
      the arguments and field values. */
  lemma UriStartsWithBaseUrl(g: Generation, c: ClassDecl, inst: Instance, args: seq<Atom>)
    requires Resolve(g, c).Ok? && Instantiates(inst, c)
    ensures Covers(inst, Resolve(g, c).value.queryFields)
    ensures var r := FormatUri(Resolve(g, c).value, inst, args, g);
      r.Ok? ==> BaseUrl <= r.value
  {
    ResolvedFieldsAreDeclared(g, c, inst);
    ResolvedInfo(g, c);
    var info := Resolve(g, c).value;
    LiteralPrefixSurvives(info, BaseUrl, Parse(c.requestData.value.uri).value, inst, args, g);
  }
}

=== FILE: seqs.dfy ===
/** Searching sequences. */
module Seqs {
  import opened Wrappers

  /** The first index at or after `from` whose element satisfies `p`, if any. */
  function FirstIndex<T>(s: seq<T>, p: T -> bool, from: nat): (r: Option<nat>)
    requires from <= |s|
    ensures r.Some? ==> from <= r.value < |s| && p(s[r.value])
    ensures r.Some? ==> forall j :: from <= j < r.value ==> !p(s[j])
    ensures r.None? <==> forall j :: from <= j < |s| ==> !p(s[j])
    decreases |s| - from
  {
    if from == |s| then None
    else if p(s[from]) then Some(from)
    else FirstIndex(s, p, from + 1)
  }
}

=== FILE: text.dfy ===
/** Decimal text and comma-separated lists, rendered the way the JDK renders
    them (`Integer.toString`, `StringBuilder.append`). */
module Text {

  predicate IsDigit(c: char) {
    '0' <= c <= '9'
  }

  predicate AllDigits(s: string) {
    forall i :: 0 <= i < |s| ==> IsDigit(s[i])
  }

  function DigitChar(d: nat): (c: char)
    requires d < 10
    ensures IsDigit(c)
    ensures c as int - '0' as int == d
  {
    (d + '0' as int) as char
  }

  /** Decimal digits of `n`, most significant first, without leading zeros and
      without any grouping separator. */
  function NatToString(n: nat): (s: string)
    ensures |s| >= 1 && AllDigits(s)
    ensures s[0] == '0' ==> n == 0
    decreases n
  {
    if n < 10 then [DigitChar(n)] else NatToString(n / 10) + [DigitChar(n % 10)]
  }

  /** The digits of a number of two or more digits are those of its tenth
      followed by its last digit. */
  lemma NatToStringStep(n: nat, d: string)
    requires n >= 10 && NatToString(n / 10) == d
    ensures NatToString(n) == d + [DigitChar(n % 10)]
  {
  }

  /** The number a string of decimal digits denotes. */
  function DigitsValue(s: string): nat
    requires AllDigits(s)
    decreases |s|
  {
    if |s| == 0 then 0 else DigitsValue(s[..|s| - 1]) * 10 + (s[|s| - 1] as int - '0' as int)
  }

  /** Reading back the digits of `n` gives `n`. */
  lemma {:induction false} DigitsValueOfNatToString(n: nat)
    ensures DigitsValue(NatToString(n)) == n
    decreases n
  {
    if n >= 10 {
      var s := NatToString(n);
      DigitsValueOfNatToString(n / 10);
      assert s[..|s| - 1] == NatToString(n / 10);
    }
  }

  /** `Integer.toString`: a minus sign for negative values, then the decimal
      digits of the magnitude. */
  function IntToString(i: int): (s: string)
    ensures |s| >= 1
    ensures s[0] == '-' <==> i < 0
    ensures i >= 0 ==> s == NatToString(i)
  {
    if i < 0 then "-" + NatToString(-i) else NatToString(i)
  }

  /** The integer a signed decimal string denotes. */
  function SignedValue(s: string): int
    requires |s| >= 1
    requires s[0] == '-' ==> AllDigits(s[1..])
    requires s[0] != '-' ==> AllDigits(s)
  {
    if s[0] == '-' then -(DigitsValue(s[1..]) as int) else DigitsValue(s)
  }

  /** Reading back `Integer.toString(i)` gives `i`, so distinct numbers render
      differently. */
  lemma IntToStringRoundTrip(i: int)
    ensures var s := IntToString(i);
      && (s[0] == '-' ==> AllDigits(s[1..]))
      && (s[0] != '-' ==> AllDigits(s))
      && SignedValue(s) == i
  {
    if i < 0 {
      assert IntToString(i)[1..] == NatToString(-i);
      DigitsValueOfNatToString(-i);
    } else {
      DigitsValueOfNatToString(i);
    }
  }

  /** Parts separated by single commas, with no trailing comma. */
  function JoinComma(parts: seq<string>): string {
    if |parts| == 0 then ""
    else if |parts| == 1 then parts[0]
    else parts[0] + "," + JoinComma(parts[1..])
  }

  /** What `for (o : col) builder.append(o).append(",")` leaves in the builder:
      every part followed by a comma. */
  function CommaTerminated(parts: seq<string>): (s: string)
    ensures |parts| > 0 ==> |s| > 0 && s[|s| - 1] == ','
  {
    if |parts| == 0 then "" else parts[0] + "," + CommaTerminated(parts[1..])
  }

  /** Removing the last character of the comma-terminated text leaves exactly
      the comma-joined parts: one comma between neighbours, none at the end. */
  lemma {:induction false} DropTrailingComma(parts: seq<string>)
    requires |parts| > 0
    ensures var b := CommaTerminated(parts); b[..|b| - 1] == JoinComma(parts)
  {
    var rest := CommaTerminated(parts[1..]);
    if |parts| == 1 {
      assert rest == "";
      assert CommaTerminated(parts) == parts[0] + ",";
    } else {
      DropTrailingComma(parts[1..]);
      var b := parts[0] + "," + rest;
      assert CommaTerminated(parts) == b;
      assert b[..|b| - 1] == parts[0] + "," + rest[..|rest| - 1];
    }
  }
}

=== FILE: wrappers.dfy ===
/** Two small carriers shared by every module: a value that may be absent, and
    the outcome of a step that either yields a value or names the exception
    the client would throw. */
module Wrappers {

  /** An optional value, standing in for a Java reference that may be null. */
  datatype Option<+T> = None | Some(value: T) {

    /** The wrapped value, or `default` when there is none. */
    function GetOr(default: T): T {
      match this
      case Some(v) => v
      case None => default
    }
  }

  /** A step's outcome. The three members below let `:-` stop at the first
      error and hand it on unchanged. */
  datatype Result<+T, +E> = Ok(value: T) | Err(error: E) {

    predicate IsFailure() {
      Err?
    }

    function PropagateFailure<U>(): Result<U, E>
      requires Err?
    {
      Err(error)
    }

    function Extract(): T
      requires Ok?
    {
      value
    }
  }
}
